=== FILE: README.md ===
# GeoQuery: a verified model of GeoFirestore's live circle query

`GeoQuery` keeps a live set of Firestore documents whose location lies inside a circle. The
store only supports ordered range queries, so the circle is covered by geohash ranges. The
query holds one subscription per range. It diffs the range set whenever the circle moves or
resizes while anyone is listening. It classifies each add, change and remove notification into the events its listeners
see: entered, exited, moved, changed, ready and error.

This project models that engine as an immutable state and pure transition functions. Each
entry point takes a `GeoQuery` value and returns the next value together with the events it
raised. Every event is one `(listener, event)` entry appended to a log. `Inbox(log, l)` is
what listener `l` observes.

Modules, following the structure of `GeoQuery.java`:

- `Wrappers`, `Sequences`: `Option`/`Result`, and duplicate-free sequences.
- `Geometry`: points, geohashes and hash ranges. The external geometric primitives are fields
  of a `Geometry` value of total functions: the distance test, geohash encoding,
  `queriesAtLocation`, `containsGeoHash` and `capRadius`. Every operation receives this value,
  so the proofs hold for every geometry, except the in-step lemmas of `ListenerViews`, which
  assume the covering contract `CoverContainsCircle`. It also holds the `geoHashQueriesContainGeoHash`
  search loop.
- `Documents`: document snapshots, the cached `LocationInfo` record, and the cache's
  well-keyedness.
- `Events`: events, the dispatch log, fan-out to all listeners, and per-listener inboxes.
- `Classifier`: the decision cascade of `updateLocationInfo`, and a listener's view of one
  document's membership.
- `QueryState`: the query state and its invariant `Valid`; record replacement, `reset`, the
  readiness rule, and the load-complete and cancellation callbacks of a range.
- `Sync`: `setupQueries`, which covers the range diff, re-classification, pruning and
  readiness.
- `Notifications`: `childAdded`, `childChanged` and `childRemoved`.
- `Registry`: adding and removing listeners, and `setCenter`, `setRadius` and `setLocation`.
- `ListenerViews`: what the listeners believe. A listener that has received entered for a
  document, and no exited since, believes the document is inside the circle. `Handle`
  dispatches every call and callback to its entry point. The main theorem,
  `HandleKeepsListenersInStep`, says that every entry point keeps every registered listener
  in step with the cache: its belief ends up equal to the set of cached documents marked
  inside, and each event it receives makes sense for its belief at that moment. That means
  entered only for a document it believes outside, and exited, moved and changed only for
  one it believes inside. A listener that joins starts from believing nothing.

Modelling choices:

- The listener set is a duplicate-free sequence. Its order stands for the unspecified
  iteration order of the Java `HashSet`. All event properties are stated per listener, so
  they do not depend on that order.
- The iteration order of the `locationInfos` hash map is an explicit argument `order`. The
  re-classification loop in `setupQueries` and the replay in `addGeoQueryDataEventListener`
  both use it. The argument must list every cached document exactly once (`Enumerates`).
- A subscription records its range and the `epoch` (the number of `setupQueries` runs) of the
  run that opened it. This stands for the identity of the Firestore query object. It lets
  the model state that a range kept across a diff keeps its subscription, and that a new
  range gets a fresh one.
- The Java exceptions become `Result.Failure`. A duplicate listener gives `DuplicateListener`,
  an unknown listener gives `UnknownListener`, and a document without a location gives
  `MissingLocation` (an `AssertionError` in the source). On failure the caller keeps the old
  state, which matches the source: every throw happens before any field is written.
- The point read in `childRemoved` becomes the argument `reread`. It holds the
  location field of the document as read back, or `None` if there is no such document or no
  location.
- The radius is kept in metres, as a `real`. The constructor converts without capping. The
  setters store `capRadius(km) * 1000`.
- Ready is not limited to one per loading-to-ready transition. The code fires it to every
  listener whenever the outstanding set is empty at the end of `setupQueries`. It also fires
  it on every load-complete callback that leaves nothing outstanding, including a late
  callback from a range that was already dropped. `StaleLoadCompleteRefiresReady` states the
  late case. Likewise, re-classification raises `changed` for every document that stays
  inside the circle, even though nothing about the document changed.

## Model

| member | source | states |
|---|---|---|
| Geometry.GeoHashQueriesContainGeoHash | GeoFirestoreExample/geofirestore/src/main/java/com/imperiumlabs/geofirestore/GeoQuery.java:147-157 | the search loop returns true exactly when the query set exists and one of its ranges contains the hash; a null query set contains nothing |
| Documents.NewLocationInfo | GeoFirestoreExample/geofirestore/src/main/java/com/imperiumlabs/geofirestore/GeoQuery.java:23-35 | a record's geohash is always the hash of its own location |
| Events.InboxFanOut | GeoFirestoreExample/geofirestore/src/main/java/com/imperiumlabs/geofirestore/GeoQuery.java:111-118 | raising a batch for every registered listener gives each listener that batch exactly once, in order, and gives non-listeners nothing |
| Classifier.Classify | GeoFirestoreExample/geofirestore/src/main/java/com/imperiumlabs/geofirestore/GeoQuery.java:102-141 | by membership before and after: coming inside gives one entered; staying inside gives moved then changed if the location differs, else changed alone; leaving gives one exited; staying outside gives nothing |
| Classifier.ClassifyKeepsListenersInStep | GeoFirestoreExample/geofirestore/src/main/java/com/imperiumlabs/geofirestore/GeoQuery.java:105-143 | a listener that believed the cached membership receives only events that make sense to it (entered only from outside; exited, moved and changed only from inside), and afterwards believes the membership the new record stores |
| QueryState.NewGeoQuery | GeoFirestoreExample/geofirestore/src/main/java/com/imperiumlabs/geofirestore/GeoQuery.java:72-94 | a new query stores the given center and the radius converted to metres without capping; it has no listeners, no query set, no subscription, nothing outstanding and an empty cache |
| QueryState.UpdateLocationInfo | GeoFirestoreExample/geofirestore/src/main/java/com/imperiumlabs/geofirestore/GeoQuery.java:102-144 | in every case, including when no event is raised, the document's record is replaced by one with the new location, its current membership, the location's hash and the new snapshot; no other record and no other field changes; events go only to listeners |
| QueryState.UpdateLocationInfoNotifies | GeoFirestoreExample/geofirestore/src/main/java/com/imperiumlabs/geofirestore/GeoQuery.java:105-141 | per listener: exactly one entered for a new or outside document that is now inside; moved then changed, or changed alone, for one that stays inside; exactly one exited for one that leaves; nothing for one that stays outside; nothing to non-listeners |
| QueryState.UpdateLocationInfoKeepsValid | GeoFirestoreExample/geofirestore/src/main/java/com/imperiumlabs/geofirestore/GeoQuery.java:142-143 | a record written from a snapshot that carries its location keeps the query invariant |
| QueryState.Reset | GeoFirestoreExample/geofirestore/src/main/java/com/imperiumlabs/geofirestore/GeoQuery.java:160-168 | afterwards there is no query set, no subscription, nothing outstanding and an empty cache; listeners and circle are kept |
| QueryState.CheckAndFireReady | GeoFirestoreExample/geofirestore/src/main/java/com/imperiumlabs/geofirestore/GeoQuery.java:176-192 | only ready events, only to listeners, and some exactly when nothing is outstanding and someone listens |
| QueryState.CheckAndFireReadyNotifies | GeoFirestoreExample/geofirestore/src/main/java/com/imperiumlabs/geofirestore/GeoQuery.java:181-191 | each listener receives exactly one ready when the outstanding set is empty and nothing otherwise |
| QueryState.OnInitialLoadComplete | GeoFirestoreExample/geofirestore/src/main/java/com/imperiumlabs/geofirestore/GeoQuery.java:198-203 | the completed range is no longer outstanding, the other ranges keep their status, nothing else changes, and only ready events are raised |
| QueryState.OnInitialLoadCompleteNotifies | GeoFirestoreExample/geofirestore/src/main/java/com/imperiumlabs/geofirestore/GeoQuery.java:198-203 | each listener receives one ready exactly when the completed range was the last one outstanding, or nothing was outstanding |
| QueryState.OnInitialLoadCompleteKeepsValid | GeoFirestoreExample/geofirestore/src/main/java/com/imperiumlabs/geofirestore/GeoQuery.java:198-203 | the load-complete callback keeps the query invariant |
| QueryState.StaleLoadCompleteRefiresReady | GeoFirestoreExample/geofirestore/src/main/java/com/imperiumlabs/geofirestore/GeoQuery.java:198-203 | a late callback for a range that is no longer active leaves the state unchanged but raises ready again to each listener of a ready query |
| QueryState.OnInitialLoadCancelled | GeoFirestoreExample/geofirestore/src/main/java/com/imperiumlabs/geofirestore/GeoQuery.java:205-216 | a cancelled initial load changes nothing, and in particular its range stays outstanding; it raises only the error, only to listeners |
| QueryState.OnInitialLoadCancelledNotifies | GeoFirestoreExample/geofirestore/src/main/java/com/imperiumlabs/geofirestore/GeoQuery.java:208-215 | each listener receives the error exactly once |
| Sync.Reclassify | GeoFirestoreExample/geofirestore/src/main/java/com/imperiumlabs/geofirestore/GeoQuery.java:243-249 | re-classification changes only the cache, keeps it well keyed with the same documents, and raises events only to listeners |
| Sync.ReclassifyRefreshes | GeoFirestoreExample/geofirestore/src/main/java/com/imperiumlabs/geofirestore/GeoQuery.java:243-249 | after the loop, every visited record holds its membership in the current circle with its location and snapshot unchanged; no record appears or disappears |
| Sync.ReclassifyEventsFrame | GeoFirestoreExample/geofirestore/src/main/java/com/imperiumlabs/geofirestore/GeoQuery.java:243-249 | the classification of a set of records depends only on the circle and on those records |
| Sync.ReclassifyNotifies | GeoFirestoreExample/geofirestore/src/main/java/com/imperiumlabs/geofirestore/GeoQuery.java:243-249 | each listener receives the classification of every record in iteration order, exactly as if each were classified against the cache before the loop; the in-place updates never affect a later record |
| Sync.ReclassifyEventsByMembership | GeoFirestoreExample/geofirestore/src/main/java/com/imperiumlabs/geofirestore/GeoQuery.java:243-249 | re-classification reports entered only for a cached record that was outside and is now inside, changed only for one that stays inside, exited only for one that left; never moved, ready or error |
| Sync.Prune | GeoFirestoreExample/geofirestore/src/main/java/com/imperiumlabs/geofirestore/GeoQuery.java:250-257 | exactly the records whose hash some active range contains are kept, unchanged |
| Sync.Resubscribe | GeoFirestoreExample/geofirestore/src/main/java/com/imperiumlabs/geofirestore/GeoQuery.java:222-242 | the query set becomes the cover of the current circle; circle, listeners and cache are untouched |
| Sync.ResubscribeDiffsRanges | GeoFirestoreExample/geofirestore/src/main/java/com/imperiumlabs/geofirestore/GeoQuery.java:223-242 | with one subscription per old range: the subscriptions become exactly the new cover; kept ranges keep their subscription and outstanding status; new ranges get a fresh subscription and are outstanding; dropped ranges stop being outstanding; outstanding stays within the active ranges |
| Sync.SetupQueries | GeoFirestoreExample/geofirestore/src/main/java/com/imperiumlabs/geofirestore/GeoQuery.java:222-260 | the query set becomes the cover of the current circle; circle and listeners are kept; events go only to listeners |
| Sync.SetupQueriesDiffsRanges | GeoFirestoreExample/geofirestore/src/main/java/com/imperiumlabs/geofirestore/GeoQuery.java:222-242 | setupQueries leaves subscriptions and outstanding ranges exactly as the range diff does: one subscription per range of the new cover, outstanding within it |
| Sync.SetupQueriesPrunes | GeoFirestoreExample/geofirestore/src/main/java/com/imperiumlabs/geofirestore/GeoQuery.java:243-257 | every remaining record's hash lies in some active range; a record is dropped exactly when no active range contains its hash; the records that remain hold their membership in the new circle |
| Sync.SetupQueriesNotifies | GeoFirestoreExample/geofirestore/src/main/java/com/imperiumlabs/geofirestore/GeoQuery.java:243-259 | each listener receives the re-classification events and then exactly one ready if nothing is outstanding at the end, and no ready otherwise; non-listeners receive nothing |
| Sync.NoReadyFromReclassify | GeoFirestoreExample/geofirestore/src/main/java/com/imperiumlabs/geofirestore/GeoQuery.java:243-249 | re-classification never contributes a ready event |
| Sync.SetupQueriesKeepsValid | GeoFirestoreExample/geofirestore/src/main/java/com/imperiumlabs/geofirestore/GeoQuery.java:222-260 | setupQueries keeps the query invariant |
| Notifications.ChildAdded | GeoFirestoreExample/geofirestore/src/main/java/com/imperiumlabs/geofirestore/GeoQuery.java:263-270 | fails with a missing-location error exactly when the document has no location, leaving the query untouched; otherwise it classifies the document at that location |
| Notifications.ChildChanged | GeoFirestoreExample/geofirestore/src/main/java/com/imperiumlabs/geofirestore/GeoQuery.java:273-280 | the same as for an added document |
| Notifications.ChildAddedKeepsValid | GeoFirestoreExample/geofirestore/src/main/java/com/imperiumlabs/geofirestore/GeoQuery.java:263-270 | a handled add keeps the query invariant |
| Notifications.ChildChangedKeepsValid | GeoFirestoreExample/geofirestore/src/main/java/com/imperiumlabs/geofirestore/GeoQuery.java:273-280 | a handled change keeps the query invariant |
| Notifications.ChildRemoved | GeoFirestoreExample/geofirestore/src/main/java/com/imperiumlabs/geofirestore/GeoQuery.java:283-306 | an uncached document changes nothing; otherwise the record is dropped exactly when the fresh read has no location or no active range contains its hash, and otherwise stays as it was; other records never change; the only event possible is exited, with the cached snapshot, for a record that was inside |
| Notifications.ChildRemovedNotifies | GeoFirestoreExample/geofirestore/src/main/java/com/imperiumlabs/geofirestore/GeoQuery.java:291-302 | each listener receives exactly one exited when an inside record is dropped, and nothing otherwise |
| Notifications.ChildRemovedKeepsValid | GeoFirestoreExample/geofirestore/src/main/java/com/imperiumlabs/geofirestore/GeoQuery.java:283-306 | removal handling keeps the query invariant |
| Registry.Replay | GeoFirestoreExample/geofirestore/src/main/java/com/imperiumlabs/geofirestore/GeoQuery.java:338-350 | the replay goes only to the new listener and consists of entered events for cached records inside the circle |
| Registry.ReplayEntersEachOnce | GeoFirestoreExample/geofirestore/src/main/java/com/imperiumlabs/geofirestore/GeoQuery.java:338-350 | the replay holds exactly one entered per record inside the circle and none for a record outside |
| Registry.AddGeoQueryDataEventListener | GeoFirestoreExample/geofirestore/src/main/java/com/imperiumlabs/geofirestore/GeoQuery.java:330-360 | a registered listener is refused with a duplicate error and nothing changes; otherwise it is added; a never-synchronised query runs setupQueries; a running query changes nothing else and raises events only to the new listener |
| Registry.AddListenerReplays | GeoFirestoreExample/geofirestore/src/main/java/com/imperiumlabs/geofirestore/GeoQuery.java:337-359 | a listener joining a running query receives one entered per record inside the circle, in iteration order, none for records outside, then one ready exactly when nothing is outstanding, and nothing else; other listeners receive nothing |
| Registry.AddListenerKeepsValid | GeoFirestoreExample/geofirestore/src/main/java/com/imperiumlabs/geofirestore/GeoQuery.java:330-360 | adding a listener keeps the query invariant, including listener uniqueness |
| Registry.RemoveGeoQueryEventListener | GeoFirestoreExample/geofirestore/src/main/java/com/imperiumlabs/geofirestore/GeoQuery.java:384-392 | an unregistered listener is refused with an unknown-listener error; otherwise exactly that listener leaves; removing the last one resets ranges, subscriptions and cache; otherwise they stay intact |
| Registry.RemoveListenerKeepsValid | GeoFirestoreExample/geofirestore/src/main/java/com/imperiumlabs/geofirestore/GeoQuery.java:384-392 | removing a listener keeps the query invariant |
| Registry.RemoveAllListeners | GeoFirestoreExample/geofirestore/src/main/java/com/imperiumlabs/geofirestore/GeoQuery.java:399-402 | afterwards no listener remains and the query is reset, keeping its circle |
| Registry.Resync | GeoFirestoreExample/geofirestore/src/main/java/com/imperiumlabs/geofirestore/GeoQuery.java:422-424 | setupQueries runs exactly when at least one listener is registered; otherwise nothing changes and nothing is raised |
| Registry.SetCenter | GeoFirestoreExample/geofirestore/src/main/java/com/imperiumlabs/geofirestore/GeoQuery.java:420-425 | the center is replaced; with listeners the query set becomes the cover of the moved circle; without listeners nothing else changes and nothing is raised |
| Registry.SetRadius | GeoFirestoreExample/geofirestore/src/main/java/com/imperiumlabs/geofirestore/GeoQuery.java:445-451 | the radius becomes the capped radius in metres; it re-synchronises only with listeners |
| Registry.SetLocation | GeoFirestoreExample/geofirestore/src/main/java/com/imperiumlabs/geofirestore/GeoQuery.java:461-468 | center and capped radius are replaced together; it re-synchronises only with listeners |
| Registry.ResyncKeepsValid | GeoFirestoreExample/geofirestore/src/main/java/com/imperiumlabs/geofirestore/GeoQuery.java:420-468 | the setters keep the query invariant |
| ListenerViews.UpdateLocationInfoKeepsListenersInStep | GeoFirestoreExample/geofirestore/src/main/java/com/imperiumlabs/geofirestore/GeoQuery.java:102-144 | a listener that believes the inside set makes sense of every event of one classification and afterwards believes the new inside set |
| ListenerViews.ReclassifyKeepsListenersInStep | GeoFirestoreExample/geofirestore/src/main/java/com/imperiumlabs/geofirestore/GeoQuery.java:243-249 | the same holds across the whole re-classification loop, record by record |
| ListenerViews.PruneKeepsInsideSet | GeoFirestoreExample/geofirestore/src/main/java/com/imperiumlabs/geofirestore/GeoQuery.java:250-257 | when the covering ranges contain every point of the circle and each record holds its membership and hash, pruning drops no record marked inside |
| ListenerViews.ReclassifiedPruneKeepsInsideSet | GeoFirestoreExample/geofirestore/src/main/java/com/imperiumlabs/geofirestore/GeoQuery.java:243-257 | after re-classifying every cached record, the pruning pass that follows leaves the inside set unchanged |
| ListenerViews.ReadyKeepsListenersInStep | GeoFirestoreExample/geofirestore/src/main/java/com/imperiumlabs/geofirestore/GeoQuery.java:176-192 | the readiness events change no listener's belief and make sense to every listener |
| ListenerViews.SetupQueriesKeepsListenersInStep | GeoFirestoreExample/geofirestore/src/main/java/com/imperiumlabs/geofirestore/GeoQuery.java:222-260 | setupQueries takes each listener from the old inside set to the new one through events that make sense |
| ListenerViews.ChildRemovedKeepsListenersInStep | GeoFirestoreExample/geofirestore/src/main/java/com/imperiumlabs/geofirestore/GeoQuery.java:283-306 | removal handling takes each listener from the old inside set to the new one; an exited arrives only for a document the listener believed inside |
| Registry.InboxOfReplay | GeoFirestoreExample/geofirestore/src/main/java/com/imperiumlabs/geofirestore/GeoQuery.java:338-350 | the replay gives the new listener one entered per record of the iteration order that is marked inside, in that order |
| ListenerViews.EntriesTeachInsideSet | GeoFirestoreExample/geofirestore/src/main/java/com/imperiumlabs/geofirestore/GeoQuery.java:338-350 | the replayed entered events make sense to a listener that believes none of those documents inside, and teach it exactly the documents marked inside |
| ListenerViews.AddListenerKeepsListenersInStep | GeoFirestoreExample/geofirestore/src/main/java/com/imperiumlabs/geofirestore/GeoQuery.java:330-359 | the new listener goes from believing nothing to believing the inside set; the others keep their belief, or follow setupQueries when the query was never synchronised |
| ListenerViews.JoinUnsynchronisedKeepsListenersInStep | GeoFirestoreExample/geofirestore/src/main/java/com/imperiumlabs/geofirestore/GeoQuery.java:335-336 | joining a never-synchronised query, with nothing marked inside, moves every listener from nothing to the inside set after setupQueries |
| ListenerViews.JoinRunningKeepsListenersInStep | GeoFirestoreExample/geofirestore/src/main/java/com/imperiumlabs/geofirestore/GeoQuery.java:337-358 | joining a running query teaches the newcomer the inside set, and the other listeners hear nothing |
| ListenerViews.AddListenerStaysInStep | GeoFirestoreExample/geofirestore/src/main/java/com/imperiumlabs/geofirestore/GeoQuery.java:330-359 | adding a listener keeps the invariant, keeps a query without a query set free of inside records, and keeps every listener in step |
| ListenerViews.RemoveListenerStaysInStep | GeoFirestoreExample/geofirestore/src/main/java/com/imperiumlabs/geofirestore/GeoQuery.java:384-392 | removing a listener keeps the invariant and every remaining listener in step |
| ListenerViews.RemoveAllStaysInStep | GeoFirestoreExample/geofirestore/src/main/java/com/imperiumlabs/geofirestore/GeoQuery.java:399-402 | removing all listeners keeps the invariant and leaves nothing marked inside |
| ListenerViews.ResyncStaysInStep | GeoFirestoreExample/geofirestore/src/main/java/com/imperiumlabs/geofirestore/GeoQuery.java:420-468 | re-synchronising after moving or resizing the circle keeps the invariant and every listener in step |
| ListenerViews.SetCenterStaysInStep | GeoFirestoreExample/geofirestore/src/main/java/com/imperiumlabs/geofirestore/GeoQuery.java:420-425 | setCenter keeps the invariant and every listener in step |
| ListenerViews.SetRadiusStaysInStep | GeoFirestoreExample/geofirestore/src/main/java/com/imperiumlabs/geofirestore/GeoQuery.java:445-451 | setRadius keeps the invariant and every listener in step |
| ListenerViews.SetLocationStaysInStep | GeoFirestoreExample/geofirestore/src/main/java/com/imperiumlabs/geofirestore/GeoQuery.java:461-468 | setLocation keeps the invariant and every listener in step |
| ListenerViews.UpdateStaysInStep | GeoFirestoreExample/geofirestore/src/main/java/com/imperiumlabs/geofirestore/GeoQuery.java:263-280 | an added or changed document with a location keeps the invariant and every listener in step |
| ListenerViews.ChildRemovedStaysInStep | GeoFirestoreExample/geofirestore/src/main/java/com/imperiumlabs/geofirestore/GeoQuery.java:283-306 | a removal keeps the invariant and every listener in step |
| ListenerViews.LoadCompleteStaysInStep | GeoFirestoreExample/geofirestore/src/main/java/com/imperiumlabs/geofirestore/GeoQuery.java:198-203 | a load-complete callback keeps the invariant and every listener in step |
| ListenerViews.LoadCancelledStaysInStep | GeoFirestoreExample/geofirestore/src/main/java/com/imperiumlabs/geofirestore/GeoQuery.java:205-216 | a cancelled load keeps the invariant and every listener in step |
| ListenerViews.Handle | GeoFirestoreExample/geofirestore/src/main/java/com/imperiumlabs/geofirestore/GeoQuery.java:263-392 | an input fails exactly for a duplicate listener, an unknown listener, or an added or changed document without a location |
| ListenerViews.CallKeepsListenersInStep | GeoFirestoreExample/geofirestore/src/main/java/com/imperiumlabs/geofirestore/GeoQuery.java:330-468 | every application call keeps the invariant and every listener in step |
| ListenerViews.CallbackKeepsListenersInStep | GeoFirestoreExample/geofirestore/src/main/java/com/imperiumlabs/geofirestore/GeoQuery.java:198-306 | every store callback keeps the invariant and every listener in step |
| ListenerViews.HandleKeepsListenersInStep | GeoFirestoreExample/geofirestore/src/main/java/com/imperiumlabs/geofirestore/GeoQuery.java:102-468 | whatever call or callback reaches a valid query, every listener registered afterwards ends up believing exactly the documents marked inside, each event it receives makes sense for its belief at the time, and the invariant holds again |

## Left out

- Distance, geohash encoding, range covering, range membership and radius capping are
  computed by helper classes that are not part of this model. They appear as uninterpreted
  fields of `Geometry`, so no property depends on how they are computed, except that the
  in-step lemmas of `ListenerViews` assume the covering contract `CoverContainsCircle`.
- Coordinates are `real`, not `double`. Location equality, which decides between moved and
  changed, is exact value equality of the two coordinates.
- The kilometre/metre conversion is exact over `real`. The round trip `getRadius` after
  `setRadius` in double arithmetic is not modelled, and neither are the getters.
- Firestore I/O is not modelled: building range queries, attaching and detaching listeners,
  the single-value load listener, and the point read in `childRemoved`. Opening and
  closing a subscription is an update of `firestoreQueries`. The result of the point read is
  an argument.
- `Notifications.ChildRemoved` assumes the point read of the removed document has
  finished and takes its result as `reread`. The code calls `getResult()` on the read's task
  without waiting (line 287). That call throws `IllegalStateException` while the task is
  still pending. The model does not include that race or the exception.
- Locking is not modelled: the `synchronized` methods and blocks, and the nested lock taken
  in `childRemoved`. Each entry point is one atomic transition.
- `raiseEvent` and the execution of listener callbacks are not modelled. Raising an event
  appends to the log.
- The `ChildEventListener` adapter at lines 38-69 is not modelled. It takes Realtime Database
  snapshot types that do not match the handlers it calls, and it ignores `onChildMoved` and
  `onCancelled`.
- The source's cancellation handler refers to a field `geoFire` that the class does not
  declare. The model takes the evident intent: the error goes to every listener and the
  state does not change.
- The `EventListenerBridge` overloads at lines 317-319 and 371-373 are not modelled. They
  wrap a listener before delegating, and the bridge's equality is not part of this model.
  Listeners are compared by identity.
- `ListenerViews.HandleKeepsListenersInStep`: the theorem rests on two assumptions that the
  class does not check.
  - `CoverContainsCircle` says every point inside a circle hashes into one of the circle's
    covering ranges. The covering helper is not part of this model.
  - `CoverContainsCircle` is assumed for every radius. That includes a radius above the
    documented maximum of about 8587 km (lines 85-86 and 440-441). The setters cap the
    radius, but the constructor does not (line 93), so a query built with a larger radius
    relies on covering that the class never promises. Without that covering, pruning can
    drop a record marked inside without raising exited.
  - `Admissible` says document callbacks arrive only while a query set exists. That holds
    because reset detaches the document listener of every range query together with the
    query set (lines 161-163).
  - The one-shot load listeners registered at line 196 are never removed. Their callbacks
    can therefore arrive in every state, and `Admissible` allows load-complete and
    load-cancelled inputs in every state.

=== FILE: classifier.dfy ===
/**
 * The membership classifier of updateLocationInfo: from the cached record of a document (if
 * any), its new location and whether that location lies inside the circle, the events each
 * listener receives.
 */
module Classifier {
  import opened Wrappers
  import opened Geometry
  import opened Documents
  import opened Events

  /**
   * The decision cascade of updateLocationInfo. Stated by membership before and after: a
   * document that comes inside is entered, one that stays inside is changed (moved first if
   * its location differs), one that leaves is exited, one that stays outside raises nothing.
   */
  function Classify(oldInfo: Option<LocationInfo>, snapshot: DocumentSnapshot, location: GeoPoint, isInQuery: bool)
    : (events: seq<Event>)
    ensures !WasInQuery(oldInfo) && isInQuery ==> events == [DocumentEntered(snapshot, location)]
    ensures WasInQuery(oldInfo) && isInQuery && oldInfo.value.location != location
      ==> events == [DocumentMoved(snapshot, location), DocumentChanged(snapshot, location)]
    ensures WasInQuery(oldInfo) && isInQuery && oldInfo.value.location == location
      ==> events == [DocumentChanged(snapshot, location)]
    ensures WasInQuery(oldInfo) && !isInQuery ==> events == [DocumentExited(snapshot)]
    ensures !WasInQuery(oldInfo) && !isInQuery ==> events == []
  {
    var isNew := oldInfo.None?;
    var changedLocation := oldInfo.Some? && oldInfo.value.location != location;
    var wasInQuery := oldInfo.Some? && oldInfo.value.inGeoQuery;
    if (isNew || !wasInQuery) && isInQuery then
      [DocumentEntered(snapshot, location)]
    else if !isNew && isInQuery then
      (if changedLocation then [DocumentMoved(snapshot, location)] else []) + [DocumentChanged(snapshot, location)]
    else if wasInQuery && !isInQuery then
      [DocumentExited(snapshot)]
    else
      []
  }

  /**
   * A listener whose belief about the document matches the cached record makes sense of the
   * classified events, and afterwards believes the membership the new record stores.
   */
  lemma ClassifyKeepsListenersInStep(oldInfo: Option<LocationInfo>, snapshot: DocumentSnapshot, location: GeoPoint,
                                     isInQuery: bool, inside: set<DocId>)
    requires snapshot.id in inside <==> WasInQuery(oldInfo)
    ensures Sensible(inside, Classify(oldInfo, snapshot, location, isInQuery))
    ensures Believed(inside, Classify(oldInfo, snapshot, location, isInQuery)) ==
      if isInQuery then inside + {snapshot.id} else inside - {snapshot.id}
  {
    var events := Classify(oldInfo, snapshot, location, isInQuery);
    if events != [] {
      assert events[1..] == [] || events[1..] == [DocumentChanged(snapshot, location)];
      if events[1..] != [] {
        assert Believed(inside, events[1..][1..]) == inside;
      }
    } else {
      assert isInQuery ==> snapshot.id in inside;
    }
  }

  /** Classification never produces readiness or error events. */
  lemma ClassifyOnlyDocumentEvents(oldInfo: Option<LocationInfo>, snapshot: DocumentSnapshot, location: GeoPoint, isInQuery: bool)
    ensures forall e :: e in Classify(oldInfo, snapshot, location, isInQuery) ==>
      !e.GeoQueryReady? && !e.GeoQueryError? && e.snapshot == snapshot
  {
  }
}

=== FILE: documents.dfy ===
/** Document snapshots and the per-document record the query caches. */
module Documents {
  import opened Wrappers
  import opened Geometry
  import opened Sequences

  type DocId = string

  /**
   * A read of one document: its id, the location field if the document carries one, and the
   * rest of its contents, which the engine only passes on to listeners.
   */
  datatype DocumentSnapshot = DocumentSnapshot(id: DocId, location: Option<GeoPoint>, payload: string)

  /** The cached record of a document (GeoQuery.LocationInfo). */
  datatype LocationInfo = LocationInfo(
    location: GeoPoint,
    inGeoQuery: bool,
    geoHash: GeoHash,
    documentSnapshot: DocumentSnapshot)

  /** The record's constructor derives the hash from the location. */
  function NewLocationInfo(geo: Geometry, location: GeoPoint, inGeoQuery: bool, snapshot: DocumentSnapshot): (info: LocationInfo)
    ensures info.geoHash == geo.hashOf(info.location)
    ensures info.location == location && info.inGeoQuery == inGeoQuery && info.documentSnapshot == snapshot
  {
    LocationInfo(location, inGeoQuery, geo.hashOf(location), snapshot)
  }

  /** Whether a (possibly missing) cached record says the document is inside the circle. */
  predicate WasInQuery(oldInfo: Option<LocationInfo>)
  {
    oldInfo.Some? && oldInfo.value.inGeoQuery
  }

  /**
   * The cache's structural invariant: every record is filed under its snapshot's id, its hash
   * is the hash of its location, and its location is the one its snapshot carries.
   */
  predicate WellKeyed(cache: map<DocId, LocationInfo>, geo: Geometry)
  {
    forall id :: id in cache ==>
      && cache[id].documentSnapshot.id == id
      && cache[id].geoHash == geo.hashOf(cache[id].location)
      && cache[id].documentSnapshot.location == Some(cache[id].location)
  }

  /** The iteration order of a map: each key exactly once. */
  predicate Enumerates(order: seq<DocId>, cache: map<DocId, LocationInfo>)
  {
    && NoDup(order)
    && (forall id :: id in order ==> id in cache)
    && (forall id :: id in cache ==> id in order)
  }
}

=== FILE: events.dfy ===
/**
 * The events a query raises and the log they are appended to. Raising an event for a listener
 * appends one `Dispatch` to the log; what a single listener observes is its `Inbox`.
 */
module Events {
  import opened Sequences
  import opened Geometry
  import opened Documents

  type ListenerId = nat

  /** The callbacks of GeoQueryDataEventListener. */
  datatype Event =
    | DocumentEntered(snapshot: DocumentSnapshot, location: GeoPoint)
    | DocumentExited(snapshot: DocumentSnapshot)
    | DocumentMoved(snapshot: DocumentSnapshot, location: GeoPoint)
    | DocumentChanged(snapshot: DocumentSnapshot, location: GeoPoint)
    | GeoQueryReady
    | GeoQueryError(cause: string)

  /** One event handed to the dispatcher for one listener. */
  datatype Dispatch = Dispatch(listener: ListenerId, event: Event)

  /** The events of the log addressed to listener l, in log order. */
  function Inbox(log: seq<Dispatch>, l: ListenerId): (r: seq<Event>)
    ensures |r| <= |log|
  {
    if log == [] then []
    else (if log[0].listener == l then [log[0].event] else []) + Inbox(log[1..], l)
  }

  /** One listener's batch: the events of one raised Runnable, in order. */
  function Deliver(l: ListenerId, batch: seq<Event>): (log: seq<Dispatch>)
    ensures |log| == |batch|
    ensures forall i :: 0 <= i < |log| ==> log[i] == Dispatch(l, batch[i])
  {
    if batch == [] then [] else [Dispatch(l, batch[0])] + Deliver(l, batch[1..])
  }

  /** The same batch raised for every listener of the set. */
  function FanOut(listeners: seq<ListenerId>, batch: seq<Event>): (log: seq<Dispatch>)
    ensures forall d :: d in log ==> d.listener in listeners && d.event in batch
  {
    if listeners == [] then [] else Deliver(listeners[0], batch) + FanOut(listeners[1..], batch)
  }

  /** Listener l's inbox of a concatenated log is the concatenation of its inboxes. */
  lemma {:induction false} InboxAppend(a: seq<Dispatch>, b: seq<Dispatch>, l: ListenerId)
    ensures Inbox(a + b, l) == Inbox(a, l) + Inbox(b, l)
  {
    if a == [] {
      assert a + b == b;
    } else {
      var c := a + b;
      var head := if a[0].listener == l then [a[0].event] else [];
      assert c[0] == a[0];
      assert c[1..] == a[1..] + b;
      InboxAppend(a[1..], b, l);
      calc {
        Inbox(c, l);
        head + Inbox(c[1..], l);
        head + (Inbox(a[1..], l) + Inbox(b, l));
        (head + Inbox(a[1..], l)) + Inbox(b, l);
        Inbox(a, l) + Inbox(b, l);
      }
    }
  }

  /** A log with no dispatch for l leaves l's inbox empty. */
  lemma {:induction false} InboxOfOthers(log: seq<Dispatch>, l: ListenerId)
    requires forall d :: d in log ==> d.listener != l
    ensures Inbox(log, l) == []
  {
    if log != [] {
      assert log[0] in log;
      assert forall d :: d in log[1..] ==> d in log;
      InboxOfOthers(log[1..], l);
    }
  }

  /** A delivered batch reaches exactly its own listener, complete and in order. */
  lemma {:induction false} InboxDeliver(target: ListenerId, batch: seq<Event>, l: ListenerId)
    ensures Inbox(Deliver(target, batch), l) == if l == target then batch else []
  {
    if batch != [] {
      var log := Deliver(target, batch);
      assert log == [Dispatch(target, batch[0])] + Deliver(target, batch[1..]);
      InboxAppend([Dispatch(target, batch[0])], Deliver(target, batch[1..]), l);
      InboxDeliver(target, batch[1..], l);
      if l == target {
        assert batch == [batch[0]] + batch[1..];
      }
    }
  }

  /**
   * Fan-out over a duplicate-free listener set: every listener of the set receives the batch
   * exactly once, and nobody else receives anything.
   */
  lemma {:induction false} InboxFanOut(listeners: seq<ListenerId>, batch: seq<Event>, l: ListenerId)
    requires NoDup(listeners)
    ensures Inbox(FanOut(listeners, batch), l) == if l in listeners then batch else []
  {
    if listeners != [] {
      var head := listeners[0];
      var rest := listeners[1..];
      assert NoDup(rest);
      assert head !in rest;
      InboxAppend(Deliver(head, batch), FanOut(rest, batch), l);
      InboxDeliver(head, batch, l);
      InboxFanOut(rest, batch, l);
      assert l in listeners <==> l == head || l in rest by {
        assert listeners == [head] + rest;
      }
    }
  }

  /** The documents a listener believes inside, after one more event. */
  function Learn(inside: set<DocId>, e: Event): (learned: set<DocId>)
  {
    match e
    case DocumentEntered(snapshot, _) => inside + {snapshot.id}
    case DocumentExited(snapshot) => inside - {snapshot.id}
    case _ => inside
  }

  /** The documents a listener believes inside, after a sequence of events. */
  function Believed(inside: set<DocId>, events: seq<Event>): (believed: set<DocId>)
    decreases |events|
  {
    if events == [] then inside else Believed(Learn(inside, events[0]), events[1..])
  }

  /**
   * An event a listener can make sense of: entered only for a document it believes outside;
   * exited, moved and changed only for one it believes inside.
   */
  predicate Fits(inside: set<DocId>, e: Event)
  {
    match e
    case DocumentEntered(snapshot, _) => snapshot.id !in inside
    case DocumentExited(snapshot) => snapshot.id in inside
    case DocumentMoved(snapshot, _) => snapshot.id in inside
    case DocumentChanged(snapshot, _) => snapshot.id in inside
    case _ => true
  }

  /** Every event of the sequence makes sense given the belief it finds. */
  predicate Sensible(inside: set<DocId>, events: seq<Event>)
    decreases |events|
  {
    events == [] || (Fits(inside, events[0]) && Sensible(Learn(inside, events[0]), events[1..]))
  }

  /** Belief and sense-making compose over concatenated event sequences. */
  lemma {:induction false} BelievedAppend(inside: set<DocId>, a: seq<Event>, b: seq<Event>)
    ensures Believed(inside, a + b) == Believed(Believed(inside, a), b)
    ensures Sensible(inside, a + b) <==> Sensible(inside, a) && Sensible(Believed(inside, a), b)
    decreases |a|
  {
    if a == [] {
      assert a + b == b;
    } else {
      assert (a + b)[0] == a[0];
      assert (a + b)[1..] == a[1..] + b;
      BelievedAppend(Learn(inside, a[0]), a[1..], b);
    }
  }
}

=== FILE: geometry.dfy ===
/**
 * Points, geohashes and geohash ranges, together with the geometric primitives the query
 * engine consumes. The primitives (distance test, geohash encoding, range covering and range
 * membership) belong to helper classes outside the query engine; they are gathered into a
 * `Geometry` value of total functions that every operation receives, so nothing is assumed
 * about them beyond what each contract states.
 */
module Geometry {
  import opened Wrappers

  /** A latitude/longitude pair; equality is component-wise, like GeoPoint.equals. */
  datatype GeoPoint = GeoPoint(latitude: real, longitude: real)

  /** The string form of a geohash. */
  type GeoHash = string

  /** One ordered slice [startValue, endValue] of the geohash key space (a GeoHashQuery). */
  datatype HashRange = HashRange(startValue: GeoHash, endValue: GeoHash)

  /** The external geometric collaborators, as uninterpreted functions. */
  datatype Geometry = Geometry(
    /** distance(location, center) <= radius, radius in metres */
    withinRadius: (GeoPoint, GeoPoint, real) -> bool,
    /** the geohash of a point */
    hashOf: GeoPoint -> GeoHash,
    /** GeoHashQuery.queriesAtLocation: the ranges covering a circle */
    queriesAtLocation: (GeoPoint, real) -> set<HashRange>,
    /** GeoHashQuery.containsGeoHash */
    containsGeoHash: (HashRange, GeoHash) -> bool,
    /** GeoUtils.capRadius, in kilometres */
    capRadius: real -> real)

  /** The ranges of a possibly never-computed query set (null counts as empty). */
  function ActiveQueries(queries: Option<set<HashRange>>): (ranges: set<HashRange>)
  {
    match queries
    case None => {}
    case Some(qs) => qs
  }

  /** Some active range contains the hash; false while no query set has been computed. */
  predicate QueriesContainGeoHash(queries: Option<set<HashRange>>, geo: Geometry, hash: GeoHash)
  {
    queries.Some? && exists q :: q in queries.value && geo.containsGeoHash(q, hash)
  }

  /** The search loop of geoHashQueriesContainGeoHash: stops at the first range that contains the hash. */
  method GeoHashQueriesContainGeoHash(queries: Option<set<HashRange>>, geo: Geometry, hash: GeoHash)
    returns (found: bool)
    ensures found <==> QueriesContainGeoHash(queries, geo, hash)
    ensures found ==> queries.Some?
  {
    if queries.None? {
      return false;
    }
    var remaining := queries.value;
    while remaining != {}
      invariant remaining <= queries.value
      invariant forall q :: q in queries.value && q !in remaining ==> !geo.containsGeoHash(q, hash)
      decreases remaining
    {
      var q :| q in remaining;
      if geo.containsGeoHash(q, hash) {
        return true;
      }
      remaining := remaining - {q};
    }
    return false;
  }
}

=== FILE: notifications.dfy ===
/**
 * The handlers of the raw range-subscription notifications: a document added to, changed
 * in, or removed from one of the subscribed ranges.
 */
module Notifications {
  import opened Wrappers
  import opened Sequences
  import opened Geometry
  import opened Documents
  import opened Events
  import opened QueryState

  /**
   * childAdded: a document without a location field is an integrity error that leaves the
   * query untouched; otherwise the document is classified and its record replaced.
   */
  function ChildAdded(s: GeoQuery, geo: Geometry, snapshot: DocumentSnapshot): (r: Result<Step, GeoQueryError>)
    ensures r.Failure? <==> snapshot.location.None?
    ensures r.Failure? ==> r.error == MissingLocation(snapshot.id)
    ensures r.Success? ==> r.value == UpdateLocationInfo(s, geo, snapshot, snapshot.location.value)
  {
    match snapshot.location
    case None => Failure(MissingLocation(snapshot.id))
    case Some(location) => Success(UpdateLocationInfo(s, geo, snapshot, location))
  }

  /** childChanged: the source repeats childAdded's body verbatim. */
  function ChildChanged(s: GeoQuery, geo: Geometry, snapshot: DocumentSnapshot): (r: Result<Step, GeoQueryError>)
    ensures r.Failure? <==> snapshot.location.None?
    ensures r.Failure? ==> r.error == MissingLocation(snapshot.id)
    ensures r.Success? ==> r.value == UpdateLocationInfo(s, geo, snapshot, snapshot.location.value)
  {
    ChildAdded(s, geo, snapshot)
  }

  lemma ChildAddedKeepsValid(s: GeoQuery, geo: Geometry, snapshot: DocumentSnapshot)
    requires Valid(s, geo)
    ensures ChildAdded(s, geo, snapshot).Success? ==> Valid(ChildAdded(s, geo, snapshot).value.query, geo)
  {
    if snapshot.location.Some? {
      UpdateLocationInfoKeepsValid(s, geo, snapshot, snapshot.location.value);
    }
  }

  lemma ChildChangedKeepsValid(s: GeoQuery, geo: Geometry, snapshot: DocumentSnapshot)
    requires Valid(s, geo)
    ensures ChildChanged(s, geo, snapshot).Success? ==> Valid(ChildChanged(s, geo, snapshot).value.query, geo)
  {
    if snapshot.location.Some? {
      UpdateLocationInfoKeepsValid(s, geo, snapshot, snapshot.location.value);
    }
  }

  /**
   * Whether a fresh read of a document shows it is no longer seen by any active range: it
   * has no location, or no active range contains the hash of its location.
   */
  predicate LeftAllRanges(s: GeoQuery, geo: Geometry, reread: Option<GeoPoint>)
  {
    reread.None? || !QueriesContainGeoHash(s.queries, geo, geo.hashOf(reread.value))
  }

  /**
   * childRemoved. `reread` is the location field of the document as read back from the store
   * (None when the document is gone or has no location). A document without a record is
   * ignored; otherwise its record is dropped exactly when the fresh read shows it left all
   * active ranges, and exited is raised only if the record was inside the circle.
   */
  function ChildRemoved(s: GeoQuery, geo: Geometry, snapshot: DocumentSnapshot, reread: Option<GeoPoint>)
    : (r: Step)
    ensures snapshot.id !in s.locationInfos ==> r.query == s && r.log == []
    ensures r.query == s.(locationInfos := r.query.locationInfos)
    ensures forall id :: id != snapshot.id ==>
      (id in r.query.locationInfos <==> id in s.locationInfos)
      && (id in s.locationInfos ==> r.query.locationInfos[id] == s.locationInfos[id])
    ensures snapshot.id in s.locationInfos ==>
      (snapshot.id !in r.query.locationInfos <==> LeftAllRanges(s, geo, reread))
    ensures snapshot.id in r.query.locationInfos ==>
      r.query.locationInfos[snapshot.id] == s.locationInfos[snapshot.id] && r.log == []
    ensures forall d :: d in r.log ==>
      && d.listener in s.eventListeners
      && d.event == DocumentExited(s.locationInfos[snapshot.id].documentSnapshot)
      && s.locationInfos[snapshot.id].inGeoQuery
  {
    var documentID := snapshot.id;
    if documentID !in s.locationInfos then Step(s, [])
    else
      var hash := if reread.Some? then Some(geo.hashOf(reread.value)) else None;
      if hash.None? || !QueriesContainGeoHash(s.queries, geo, hash.value) then
        var locInfo := s.locationInfos[documentID];
        var log := if locInfo.inGeoQuery then FanOut(s.eventListeners, [DocumentExited(locInfo.documentSnapshot)]) else [];
        Step(s.(locationInfos := s.locationInfos - {documentID}), log)
      else
        Step(s, [])
  }

  /**
   * Each listener receives exactly one exited, with the cached snapshot, when the removal
   * drops a record that was inside the circle, and nothing otherwise.
   */
  lemma ChildRemovedNotifies(s: GeoQuery, geo: Geometry, snapshot: DocumentSnapshot, reread: Option<GeoPoint>, l: ListenerId)
    requires NoDup(s.eventListeners)
    ensures Inbox(ChildRemoved(s, geo, snapshot, reread).log, l) ==
      if && l in s.eventListeners
         && snapshot.id in s.locationInfos
         && s.locationInfos[snapshot.id].inGeoQuery
         && LeftAllRanges(s, geo, reread)
      then [DocumentExited(s.locationInfos[snapshot.id].documentSnapshot)]
      else []
  {
    if snapshot.id in s.locationInfos && s.locationInfos[snapshot.id].inGeoQuery && LeftAllRanges(s, geo, reread) {
      InboxFanOut(s.eventListeners, [DocumentExited(s.locationInfos[snapshot.id].documentSnapshot)], l);
    }
  }

  lemma ChildRemovedKeepsValid(s: GeoQuery, geo: Geometry, snapshot: DocumentSnapshot, reread: Option<GeoPoint>)
    requires Valid(s, geo)
    ensures Valid(ChildRemoved(s, geo, snapshot, reread).query, geo)
  {
  }
}

=== FILE: query_state.dfy ===
/**
 * The state of one GeoQuery and the transitions every entry point shares: replacing a cached
 * record, resetting, and the readiness rule.
 */
module QueryState {
  import opened Wrappers
  import opened Sequences
  import opened Geometry
  import opened Documents
  import opened Events
  import opened Classifier

  /** Radii are kept in metres internally and given in kilometres by callers. */
  const KilometerToMeter: real := 1000.0

  /**
   * A live range subscription. `epoch` numbers the setupQueries run that opened it, which
   * stands for the identity of the Firestore query object created for the range.
   */
  datatype Subscription = Subscription(range: HashRange, epoch: nat)

  /** The fields of a GeoQuery; `eventListeners` holds each registered listener once. */
  datatype GeoQuery = GeoQuery(
    center: GeoPoint,
    radius: real,
    eventListeners: seq<ListenerId>,
    queries: Option<set<HashRange>>,
    firestoreQueries: map<HashRange, Subscription>,
    outstandingQueries: set<HashRange>,
    locationInfos: map<DocId, LocationInfo>,
    epoch: nat)

  /** The state after an entry point, with the events it raised in order. */
  datatype Step = Step(query: GeoQuery, log: seq<Dispatch>)

  /** What the entry points throw. */
  datatype GeoQueryError =
    | DuplicateListener(listener: ListenerId)
    | UnknownListener(listener: ListenerId)
    | MissingLocation(id: DocId)

  /**
   * The invariant every entry point keeps: one subscription per active range and none other,
   * outstanding ranges are active, and the cache is well keyed.
   */
  predicate Valid(s: GeoQuery, geo: Geometry)
  {
    && NoDup(s.eventListeners)
    && s.firestoreQueries.Keys == ActiveQueries(s.queries)
    && (forall q :: q in s.firestoreQueries ==>
          s.firestoreQueries[q].range == q && s.firestoreQueries[q].epoch < s.epoch)
    && s.outstandingQueries <= s.firestoreQueries.Keys
    && WellKeyed(s.locationInfos, geo)
  }

  /** No query set, no subscription, nothing outstanding, nothing cached. */
  predicate Unsubscribed(s: GeoQuery)
  {
    && s.queries.None?
    && s.firestoreQueries == map[]
    && s.outstandingQueries == {}
    && s.locationInfos == map[]
  }

  predicate HasListeners(s: GeoQuery)
  {
    |s.eventListeners| > 0
  }

  /** The GeoQuery constructor: the radius is converted to metres but not capped. */
  function NewGeoQuery(center: GeoPoint, radiusKm: real): (s: GeoQuery)
    ensures Unsubscribed(s) && !HasListeners(s)
    ensures s.center == center && s.radius == radiusKm * KilometerToMeter
  {
    GeoQuery(center, radiusKm * KilometerToMeter, [], None, map[], {}, map[], 0)
  }

  lemma NewGeoQueryValid(center: GeoPoint, radiusKm: real, geo: Geometry)
    ensures Valid(NewGeoQuery(center, radiusKm), geo)
  {
  }

  /** locationIsInQuery: the distance test against the current circle. */
  predicate LocationIsInQuery(s: GeoQuery, geo: Geometry, location: GeoPoint)
  {
    geo.withinRadius(location, s.center, s.radius)
  }

  /** The cached record of a document, if any. */
  function CachedInfo(s: GeoQuery, id: DocId): (info: Option<LocationInfo>)
    ensures info.Some? <==> id in s.locationInfos
    ensures info.Some? ==> info.value == s.locationInfos[id]
  {
    if id in s.locationInfos then Some(s.locationInfos[id]) else None
  }

  /**
   * updateLocationInfo: raise the classified events for every listener, then replace the
   * document's record by one holding the new location, its current membership and the new
   * snapshot. Only that record changes.
   */
  function UpdateLocationInfo(s: GeoQuery, geo: Geometry, snapshot: DocumentSnapshot, location: GeoPoint)
    : (r: Step)
    ensures r.query == s.(locationInfos := r.query.locationInfos)
    ensures r.query.locationInfos.Keys == s.locationInfos.Keys + {snapshot.id}
    ensures forall id :: id in s.locationInfos && id != snapshot.id ==>
      r.query.locationInfos[id] == s.locationInfos[id]
    ensures r.query.locationInfos[snapshot.id].location == location
    ensures r.query.locationInfos[snapshot.id].inGeoQuery == LocationIsInQuery(s, geo, location)
    ensures r.query.locationInfos[snapshot.id].geoHash == geo.hashOf(location)
    ensures r.query.locationInfos[snapshot.id].documentSnapshot == snapshot
    ensures forall d :: d in r.log ==> d.listener in s.eventListeners
  {
    var documentID := snapshot.id;
    var oldInfo := CachedInfo(s, documentID);
    var isInQuery := LocationIsInQuery(s, geo, location);
    var events := Classify(oldInfo, snapshot, location, isInQuery);
    var newInfo := NewLocationInfo(geo, location, isInQuery, snapshot);
    Step(s.(locationInfos := s.locationInfos[documentID := newInfo]), FanOut(s.eventListeners, events))
  }

  /**
   * What each listener receives from one classification: exactly one entered when the
   * document comes inside, moved then changed (or changed alone) when it stays inside,
   * exactly one exited when it leaves, nothing when it stays outside; non-listeners receive
   * nothing.
   */
  lemma UpdateLocationInfoNotifies(s: GeoQuery, geo: Geometry, snapshot: DocumentSnapshot, location: GeoPoint, l: ListenerId)
    requires NoDup(s.eventListeners)
    ensures var inbox := Inbox(UpdateLocationInfo(s, geo, snapshot, location).log, l);
      var oldInfo := CachedInfo(s, snapshot.id);
      var isInQuery := LocationIsInQuery(s, geo, location);
      && (l !in s.eventListeners ==> inbox == [])
      && (l in s.eventListeners ==> inbox == Classify(oldInfo, snapshot, location, isInQuery))
      && (l in s.eventListeners && !WasInQuery(oldInfo) && isInQuery ==>
            inbox == [DocumentEntered(snapshot, location)])
      && (l in s.eventListeners && WasInQuery(oldInfo) && isInQuery && oldInfo.value.location != location ==>
            inbox == [DocumentMoved(snapshot, location), DocumentChanged(snapshot, location)])
      && (l in s.eventListeners && WasInQuery(oldInfo) && isInQuery && oldInfo.value.location == location ==>
            inbox == [DocumentChanged(snapshot, location)])
      && (l in s.eventListeners && WasInQuery(oldInfo) && !isInQuery ==>
            inbox == [DocumentExited(snapshot)])
      && (!WasInQuery(oldInfo) && !isInQuery ==> inbox == [])
  {
    var oldInfo := CachedInfo(s, snapshot.id);
    var isInQuery := LocationIsInQuery(s, geo, location);
    InboxFanOut(s.eventListeners, Classify(oldInfo, snapshot, location, isInQuery), l);
  }

  /** A record written from a snapshot that carries its location keeps the cache well keyed. */
  lemma UpdateLocationInfoKeepsValid(s: GeoQuery, geo: Geometry, snapshot: DocumentSnapshot, location: GeoPoint)
    requires Valid(s, geo)
    requires snapshot.location == Some(location)
    ensures Valid(UpdateLocationInfo(s, geo, snapshot, location).query, geo)
  {
  }

  /** reset: drop every subscription, forget the query set and the cache; listeners stay. */
  function Reset(s: GeoQuery): (r: GeoQuery)
    ensures Unsubscribed(r)
    ensures r.eventListeners == s.eventListeners && r.center == s.center && r.radius == s.radius
    ensures r.epoch == s.epoch
  {
    s.(outstandingQueries := {}, firestoreQueries := map[], queries := None, locationInfos := map[])
  }

  lemma ResetKeepsValid(s: GeoQuery, geo: Geometry)
    requires Valid(s, geo)
    ensures Valid(Reset(s), geo)
  {
  }

  /** canFireReady: every active range has delivered its initial load. */
  predicate CanFireReady(s: GeoQuery)
  {
    s.outstandingQueries == {}
  }

  /** checkAndFireReady: one ready event per listener, exactly when nothing is outstanding. */
  function CheckAndFireReady(s: GeoQuery): (log: seq<Dispatch>)
    ensures forall d :: d in log ==> d.listener in s.eventListeners && d.event == GeoQueryReady
    ensures log != [] ==> s.outstandingQueries == {}
    ensures s.outstandingQueries == {} && HasListeners(s) ==> log != []
  {
    if CanFireReady(s) then FanOut(s.eventListeners, [GeoQueryReady]) else []
  }

  lemma CheckAndFireReadyNotifies(s: GeoQuery, l: ListenerId)
    requires NoDup(s.eventListeners)
    ensures Inbox(CheckAndFireReady(s), l) ==
      if l in s.eventListeners && s.outstandingQueries == {} then [GeoQueryReady] else []
  {
    if CanFireReady(s) {
      InboxFanOut(s.eventListeners, [GeoQueryReady], l);
    }
  }

  /**
   * The load-complete callback registered for a range: the range stops being outstanding,
   * then the readiness rule runs. Nothing else changes.
   */
  function OnInitialLoadComplete(s: GeoQuery, query: HashRange): (r: Step)
    ensures r.query == s.(outstandingQueries := r.query.outstandingQueries)
    ensures forall q :: q in r.query.outstandingQueries <==> q in s.outstandingQueries && q != query
    ensures forall d :: d in r.log ==> d.listener in s.eventListeners && d.event == GeoQueryReady
  {
    var t := s.(outstandingQueries := s.outstandingQueries - {query});
    Step(t, CheckAndFireReady(t))
  }

  /** Each listener receives ready from the callback exactly when the outstanding set ends up empty. */
  lemma OnInitialLoadCompleteNotifies(s: GeoQuery, query: HashRange, l: ListenerId)
    requires NoDup(s.eventListeners)
    ensures var r := OnInitialLoadComplete(s, query);
      Inbox(r.log, l) == if l in s.eventListeners && s.outstandingQueries <= {query} then [GeoQueryReady] else []
  {
    var t := s.(outstandingQueries := s.outstandingQueries - {query});
    CheckAndFireReadyNotifies(t, l);
    assert t.outstandingQueries == {} <==> s.outstandingQueries <= {query};
  }

  lemma OnInitialLoadCompleteKeepsValid(s: GeoQuery, geo: Geometry, query: HashRange)
    requires Valid(s, geo)
    ensures Valid(OnInitialLoadComplete(s, query).query, geo)
  {
  }

  /**
   * The callback is not guarded by whether its range is still active: a late callback from a
   * range that was already dropped raises ready again to every listener of a ready query.
   */
  lemma StaleLoadCompleteRefiresReady(s: GeoQuery, query: HashRange, l: ListenerId)
    requires NoDup(s.eventListeners) && l in s.eventListeners
    requires s.outstandingQueries == {} && query !in s.firestoreQueries
    ensures OnInitialLoadComplete(s, query).query == s
    ensures Inbox(OnInitialLoadComplete(s, query).log, l) == [GeoQueryReady]
  {
    OnInitialLoadCompleteNotifies(s, query, l);
  }

  /** The cancellation callback of a range: an error to every listener, nothing else changes. */
  function OnInitialLoadCancelled(s: GeoQuery, cause: string): (r: Step)
    ensures r.query == s
    ensures forall d :: d in r.log ==> d.listener in s.eventListeners && d.event == GeoQueryError(cause)
  {
    Step(s, FanOut(s.eventListeners, [GeoQueryError(cause)]))
  }

  lemma OnInitialLoadCancelledNotifies(s: GeoQuery, cause: string, l: ListenerId)
    requires NoDup(s.eventListeners)
    ensures Inbox(OnInitialLoadCancelled(s, cause).log, l) ==
      if l in s.eventListeners then [GeoQueryError(cause)] else []
  {
    InboxFanOut(s.eventListeners, [GeoQueryError(cause)], l);
  }
}

=== FILE: registry.dfy ===
/**
 * The public surface of a GeoQuery: registering and removing listeners, and moving or
 * resizing the circle.
 */
module Registry {
  import opened Wrappers
  import opened Sequences
  import opened Geometry
  import opened Documents
  import opened Events
  import opened QueryState
  import opened Sync

  /**
   * The replay for a late listener: one entered per record inside the circle, in the
   * cache's iteration order `order`, addressed to that listener alone.
   */
  function Replay(cache: map<DocId, LocationInfo>, order: seq<DocId>, listener: ListenerId): (log: seq<Dispatch>)
    ensures forall d :: d in log ==>
      && d.listener == listener
      && exists id :: id in order && id in cache && cache[id].inGeoQuery
           && d.event == DocumentEntered(cache[id].documentSnapshot, cache[id].location)
    decreases |order|
  {
    if order == [] then []
    else
      var own := if order[0] in cache && cache[order[0]].inGeoQuery then
        [Dispatch(listener, DocumentEntered(cache[order[0]].documentSnapshot, cache[order[0]].location))]
      else [];
      own + Replay(cache, order[1..], listener)
  }

  /** The events the replay addresses to its listener: an entered per record of `order` marked inside. */
  function Entries(cache: map<DocId, LocationInfo>, order: seq<DocId>): (entries: seq<Event>)
    decreases |order|
  {
    if order == [] then []
    else
      (if order[0] in cache && cache[order[0]].inGeoQuery then
         [DocumentEntered(cache[order[0]].documentSnapshot, cache[order[0]].location)]
       else [])
      + Entries(cache, order[1..])
  }

  /** The replay addresses to its listener exactly the entries, in iteration order. */
  lemma {:induction false} InboxOfReplay(cache: map<DocId, LocationInfo>, order: seq<DocId>, listener: ListenerId)
    ensures Inbox(Replay(cache, order, listener), listener) == Entries(cache, order)
    decreases |order|
  {
    if order != [] {
      var own := if order[0] in cache && cache[order[0]].inGeoQuery then
        [Dispatch(listener, DocumentEntered(cache[order[0]].documentSnapshot, cache[order[0]].location))]
      else [];
      InboxAppend(own, Replay(cache, order[1..], listener), listener);
      InboxOfReplay(cache, order[1..], listener);
    }
  }

  /** The replay holds exactly one entered per record inside the circle and none for the others. */
  lemma {:induction false} ReplayEntersEachOnce(cache: map<DocId, LocationInfo>, geo: Geometry, order: seq<DocId>, listener: ListenerId, id: DocId)
    requires WellKeyed(cache, geo) && NoDup(order)
    requires id in order && id in cache
    ensures multiset(Replay(cache, order, listener))[Dispatch(listener, DocumentEntered(cache[id].documentSnapshot, cache[id].location))]
      == if cache[id].inGeoQuery then 1 else 0
    decreases |order|
  {
    var entered := Dispatch(listener, DocumentEntered(cache[id].documentSnapshot, cache[id].location));
    var rest := Replay(cache, order[1..], listener);
    assert NoDup(order[1..]);
    if order[0] == id {
      assert id !in order[1..];
      assert entered !in rest;
    } else {
      ReplayEntersEachOnce(cache, geo, order[1..], listener, id);
      assert order[0] != cache[id].documentSnapshot.id;
    }
  }

  /**
   * addGeoQueryDataEventListener: a listener already registered is refused. Otherwise it is
   * registered; a query never synchronised runs setupQueries; a running one replays to the new
   * listener alone an entered per record inside the circle, then ready if nothing is
   * outstanding. `order` is the cache's iteration order.
   */
  function AddGeoQueryDataEventListener(s: GeoQuery, geo: Geometry, listener: ListenerId, order: seq<DocId>)
    : (r: Result<Step, GeoQueryError>)
    requires Enumerates(order, s.locationInfos)
    ensures r.Failure? <==> listener in s.eventListeners
    ensures r.Failure? ==> r.error == DuplicateListener(listener)
    ensures r.Success? ==> r.value.query.eventListeners == s.eventListeners + [listener]
    ensures r.Success? && s.queries.None? ==>
      r.value == SetupQueries(s.(eventListeners := s.eventListeners + [listener]), geo, order)
    ensures r.Success? && s.queries.Some? ==>
      && r.value.query == s.(eventListeners := s.eventListeners + [listener])
      && forall d :: d in r.value.log ==> d.listener == listener
  {
    if listener in s.eventListeners then Failure(DuplicateListener(listener))
    else
      var t := s.(eventListeners := s.eventListeners + [listener]);
      if t.queries.None? then Success(SetupQueries(t, geo, order))
      else
        var ready := if CanFireReady(t) then [Dispatch(listener, GeoQueryReady)] else [];
        Success(Step(t, Replay(t.locationInfos, order, listener) + ready))
  }

  /**
   * A listener joining a running query receives one entered per record inside the circle,
   * in iteration order, none for records outside, then one ready exactly when nothing is
   * outstanding, and nothing else; the other listeners receive nothing.
   */
  lemma AddListenerReplays(s: GeoQuery, geo: Geometry, listener: ListenerId, order: seq<DocId>)
    requires Valid(s, geo) && Enumerates(order, s.locationInfos)
    requires listener !in s.eventListeners && s.queries.Some?
    ensures AddGeoQueryDataEventListener(s, geo, listener, order).Success?
    ensures var log := AddGeoQueryDataEventListener(s, geo, listener, order).value.log;
      && (forall l :: l != listener ==> Inbox(log, l) == [])
      && (forall id :: id in s.locationInfos ==>
            multiset(log)[Dispatch(listener, DocumentEntered(s.locationInfos[id].documentSnapshot, s.locationInfos[id].location))]
              == if s.locationInfos[id].inGeoQuery then 1 else 0)
      && multiset(log)[Dispatch(listener, GeoQueryReady)] == (if s.outstandingQueries == {} then 1 else 0)
      && (forall d :: d in log ==>
            d.event == GeoQueryReady
            || exists id :: id in s.locationInfos && s.locationInfos[id].inGeoQuery
                 && d.event == DocumentEntered(s.locationInfos[id].documentSnapshot, s.locationInfos[id].location))
    ensures Inbox(AddGeoQueryDataEventListener(s, geo, listener, order).value.log, listener)
      == Entries(s.locationInfos, order) + (if s.outstandingQueries == {} then [GeoQueryReady] else [])
  {
    var r := AddGeoQueryDataEventListener(s, geo, listener, order).value;
    var replay := Replay(s.locationInfos, order, listener);
    var ready := if s.outstandingQueries == {} then [Dispatch(listener, GeoQueryReady)] else [];
    assert r.log == replay + ready;
    forall l | l != listener
      ensures Inbox(r.log, l) == []
    {
      InboxOfOthers(r.log, l);
    }
    forall id | id in s.locationInfos
      ensures multiset(r.log)[Dispatch(listener, DocumentEntered(s.locationInfos[id].documentSnapshot, s.locationInfos[id].location))]
              == if s.locationInfos[id].inGeoQuery then 1 else 0
    {
      ReplayEntersEachOnce(s.locationInfos, geo, order, listener, id);
    }
    assert Dispatch(listener, GeoQueryReady) !in replay;
    InboxAppend(replay, ready, listener);
    InboxOfReplay(s.locationInfos, order, listener);
    if s.outstandingQueries == {} {
      InboxDeliver(listener, [GeoQueryReady], listener);
      assert ready == Deliver(listener, [GeoQueryReady]);
    }
  }

  lemma AddListenerKeepsValid(s: GeoQuery, geo: Geometry, listener: ListenerId, order: seq<DocId>)
    requires Valid(s, geo) && Enumerates(order, s.locationInfos)
    ensures var r := AddGeoQueryDataEventListener(s, geo, listener, order);
      r.Success? ==> Valid(r.value.query, geo)
  {
    if listener !in s.eventListeners {
      var t := s.(eventListeners := s.eventListeners + [listener]);
      assert Valid(t, geo);
      if t.queries.None? {
        SetupQueriesKeepsValid(t, geo, order);
      }
    }
  }

  /**
   * removeGeoQueryEventListener: an unregistered listener is refused. Otherwise it is
   * unregistered; if it was the last one the query is reset, and if others remain the ranges,
   * subscriptions and cache are left as they were.
   */
  function RemoveGeoQueryEventListener(s: GeoQuery, listener: ListenerId): (r: Result<GeoQuery, GeoQueryError>)
    ensures r.Failure? <==> listener !in s.eventListeners
    ensures r.Failure? ==> r.error == UnknownListener(listener)
    ensures r.Success? ==> forall l :: l in r.value.eventListeners <==> l in s.eventListeners && l != listener
    ensures r.Success? && !HasListeners(r.value) ==> Unsubscribed(r.value)
    ensures r.Success? && HasListeners(r.value) ==> r.value == s.(eventListeners := r.value.eventListeners)
    ensures r.Success? ==> r.value.center == s.center && r.value.radius == s.radius
  {
    if listener !in s.eventListeners then Failure(UnknownListener(listener))
    else
      var t := s.(eventListeners := Without(s.eventListeners, listener));
      if !HasListeners(t) then Success(Reset(t)) else Success(t)
  }

  lemma RemoveListenerKeepsValid(s: GeoQuery, geo: Geometry, listener: ListenerId)
    requires Valid(s, geo)
    ensures var r := RemoveGeoQueryEventListener(s, listener);
      r.Success? ==> Valid(r.value, geo)
  {
  }

  /** removeAllListeners: no listener remains and the query is reset. */
  function RemoveAllListeners(s: GeoQuery): (r: GeoQuery)
    ensures !HasListeners(r) && Unsubscribed(r)
    ensures r.center == s.center && r.radius == s.radius
  {
    Reset(s.(eventListeners := []))
  }

  lemma RemoveAllListenersKeepsValid(s: GeoQuery, geo: Geometry)
    requires Valid(s, geo)
    ensures Valid(RemoveAllListeners(s), geo)
  {
  }

  /** The shared tail of the setters: setupQueries runs only while someone listens. */
  function Resync(s: GeoQuery, geo: Geometry, order: seq<DocId>): (r: Step)
    requires Enumerates(order, s.locationInfos)
    ensures HasListeners(s) ==> r == SetupQueries(s, geo, order)
    ensures !HasListeners(s) ==> r == Step(s, [])
    ensures r.query.center == s.center && r.query.radius == s.radius
    ensures r.query.eventListeners == s.eventListeners
    ensures r.query.queries == if HasListeners(s) then Some(geo.queriesAtLocation(s.center, s.radius)) else s.queries
  {
    if HasListeners(s) then SetupQueries(s, geo, order) else Step(s, [])
  }

  /** setCenter: move the circle; re-synchronise only while someone listens. */
  function SetCenter(s: GeoQuery, geo: Geometry, center: GeoPoint, order: seq<DocId>): (r: Step)
    requires Enumerates(order, s.locationInfos)
    ensures r.query.center == center && r.query.radius == s.radius
    ensures HasListeners(s) ==> r == SetupQueries(s.(center := center), geo, order)
    ensures HasListeners(s) ==> r.query.queries == Some(geo.queriesAtLocation(center, s.radius))
    ensures !HasListeners(s) ==> r == Step(s.(center := center), [])
  {
    Resync(s.(center := center), geo, order)
  }

  /** setRadius: resize the circle to the capped radius, in metres; re-synchronise only while someone listens. */
  function SetRadius(s: GeoQuery, geo: Geometry, radiusKm: real, order: seq<DocId>): (r: Step)
    requires Enumerates(order, s.locationInfos)
    ensures r.query.center == s.center && r.query.radius == geo.capRadius(radiusKm) * KilometerToMeter
    ensures HasListeners(s) ==> r == SetupQueries(s.(radius := r.query.radius), geo, order)
    ensures HasListeners(s) ==> r.query.queries == Some(geo.queriesAtLocation(s.center, r.query.radius))
    ensures !HasListeners(s) ==> r == Step(s.(radius := r.query.radius), [])
  {
    Resync(s.(radius := geo.capRadius(radiusKm) * KilometerToMeter), geo, order)
  }

  /** setLocation: set center and capped radius together; re-synchronise only while someone listens. */
  function SetLocation(s: GeoQuery, geo: Geometry, center: GeoPoint, radiusKm: real, order: seq<DocId>): (r: Step)
    requires Enumerates(order, s.locationInfos)
    ensures r.query.center == center && r.query.radius == geo.capRadius(radiusKm) * KilometerToMeter
    ensures HasListeners(s) ==> r == SetupQueries(s.(center := center, radius := r.query.radius), geo, order)
    ensures HasListeners(s) ==> r.query.queries == Some(geo.queriesAtLocation(center, r.query.radius))
    ensures !HasListeners(s) ==> r == Step(s.(center := center, radius := r.query.radius), [])
  {
    Resync(s.(center := center, radius := geo.capRadius(radiusKm) * KilometerToMeter), geo, order)
  }

  lemma ResyncKeepsValid(s: GeoQuery, geo: Geometry, order: seq<DocId>)
    requires Valid(s, geo) && Enumerates(order, s.locationInfos)
    ensures Valid(Resync(s, geo, order).query, geo)
  {
    if HasListeners(s) {
      SetupQueriesKeepsValid(s, geo, order);
    }
  }
}

=== FILE: sync.dfy ===
/**
 * setupQueries: recompute the covering ranges of the circle, open and close subscriptions by
 * diffing against the previous ranges, re-classify every cached record against the circle,
 * drop records no active range can still see, and apply the readiness rule.
 */
module Sync {
  import opened Wrappers
  import opened Sequences
  import opened Geometry
  import opened Documents
  import opened Events
  import opened Classifier
  import opened QueryState

  /** A cached record re-evaluated against the current circle: same location and snapshot. */
  function Refreshed(s: GeoQuery, geo: Geometry, info: LocationInfo): (refreshed: LocationInfo)
  {
    NewLocationInfo(geo, info.location, LocationIsInQuery(s, geo, info.location), info.documentSnapshot)
  }

  /**
   * The re-classification loop: updateLocationInfo on each record's own snapshot and location,
   * in the map's iteration order `ids`.
   */
  function Reclassify(s: GeoQuery, geo: Geometry, ids: seq<DocId>): (r: Step)
    ensures r.query == s.(locationInfos := r.query.locationInfos)
    ensures forall d :: d in r.log ==> d.listener in s.eventListeners
    ensures WellKeyed(s.locationInfos, geo) ==>
      WellKeyed(r.query.locationInfos, geo) && r.query.locationInfos.Keys == s.locationInfos.Keys
    decreases |ids|
  {
    if ids == [] then Step(s, [])
    else if ids[0] !in s.locationInfos then Reclassify(s, geo, ids[1..])
    else
      var info := s.locationInfos[ids[0]];
      var first := UpdateLocationInfo(s, geo, info.documentSnapshot, info.location);
      var rest := Reclassify(first.query, geo, ids[1..]);
      Step(rest.query, first.log + rest.log)
  }

  /**
   * The events one listener should see from re-classifying `ids`: each document classified
   * against its record as it stood before the loop, one after the other.
   */
  function ReclassifyEvents(s: GeoQuery, geo: Geometry, ids: seq<DocId>): (events: seq<Event>)
    decreases |ids|
  {
    if ids == [] then []
    else
      var own := if ids[0] in s.locationInfos then
        var info := s.locationInfos[ids[0]];
        Classify(Some(info), info.documentSnapshot, info.location, LocationIsInQuery(s, geo, info.location))
      else [];
      own + ReclassifyEvents(s, geo, ids[1..])
  }

  /** ReclassifyEvents only looks at the circle and at the records of `ids`. */
  lemma {:induction false} ReclassifyEventsFrame(s: GeoQuery, t: GeoQuery, geo: Geometry, ids: seq<DocId>)
    requires s.center == t.center && s.radius == t.radius
    requires forall id :: id in ids ==> (id in s.locationInfos <==> id in t.locationInfos)
    requires forall id :: id in ids && id in s.locationInfos ==> s.locationInfos[id] == t.locationInfos[id]
    ensures ReclassifyEvents(s, geo, ids) == ReclassifyEvents(t, geo, ids)
  {
    if ids != [] {
      ReclassifyEventsFrame(s, t, geo, ids[1..]);
    }
  }

  /**
   * After the loop, every record of `ids` holds its membership in the current circle and
   * keeps its location and snapshot; every other record is untouched; no record appears or
   * disappears.
   */
  lemma {:induction false} ReclassifyRefreshes(s: GeoQuery, geo: Geometry, ids: seq<DocId>)
    requires WellKeyed(s.locationInfos, geo)
    ensures var cache := Reclassify(s, geo, ids).query.locationInfos;
      && cache.Keys == s.locationInfos.Keys
      && forall id :: id in cache ==>
           cache[id] == if id in ids then Refreshed(s, geo, s.locationInfos[id]) else s.locationInfos[id]
    decreases |ids|
  {
    if ids != [] {
      if ids[0] !in s.locationInfos {
        ReclassifyRefreshes(s, geo, ids[1..]);
      } else {
        var info := s.locationInfos[ids[0]];
        var first := UpdateLocationInfo(s, geo, info.documentSnapshot, info.location);
        assert first.query.locationInfos == s.locationInfos[ids[0] := Refreshed(s, geo, info)];
        ReclassifyRefreshes(first.query, geo, ids[1..]);
      }
    }
  }

  /**
   * Each listener receives the classification of every record in iteration order, as if
   * each were classified against the cache as it stood before the loop; non-listeners
   * receive nothing.
   */
  lemma {:induction false} ReclassifyNotifies(s: GeoQuery, geo: Geometry, ids: seq<DocId>, l: ListenerId)
    requires WellKeyed(s.locationInfos, geo)
    requires NoDup(ids) && NoDup(s.eventListeners)
    ensures Inbox(Reclassify(s, geo, ids).log, l) ==
      if l in s.eventListeners then ReclassifyEvents(s, geo, ids) else []
    decreases |ids|
  {
    if ids != [] {
      assert NoDup(ids[1..]);
      if ids[0] !in s.locationInfos {
        ReclassifyNotifies(s, geo, ids[1..], l);
      } else {
        var info := s.locationInfos[ids[0]];
        var first := UpdateLocationInfo(s, geo, info.documentSnapshot, info.location);
        var rest := Reclassify(first.query, geo, ids[1..]);
        InboxAppend(first.log, rest.log, l);
        UpdateLocationInfoNotifies(s, geo, info.documentSnapshot, info.location, l);
        ReclassifyNotifies(first.query, geo, ids[1..], l);
        assert ids[0] !in ids[1..];
        ReclassifyEventsFrame(first.query, s, geo, ids[1..]);
      }
    }
  }

  /**
   * What re-classification tells a listener, per event: a document that came inside is
   * entered at its cached location, one that stays inside is changed, one that left is
   * exited. It never reports a move, since the location is the cached one, and never
   * readiness.
   */
  lemma {:induction false} ReclassifyEventsByMembership(s: GeoQuery, geo: Geometry, ids: seq<DocId>)
    requires WellKeyed(s.locationInfos, geo)
    ensures forall e :: e in ReclassifyEvents(s, geo, ids) ==>
      && !e.DocumentMoved? && !e.GeoQueryReady? && !e.GeoQueryError?
      && var id := e.snapshot.id;
         && id in ids && id in s.locationInfos
         && e.snapshot == s.locationInfos[id].documentSnapshot
         && var info := s.locationInfos[id];
            var now := LocationIsInQuery(s, geo, info.location);
            && (e.DocumentEntered? ==> !info.inGeoQuery && now && e.location == info.location)
            && (e.DocumentChanged? ==> info.inGeoQuery && now && e.location == info.location)
            && (e.DocumentExited? ==> info.inGeoQuery && !now)
    decreases |ids|
  {
    if ids != [] {
      ReclassifyEventsByMembership(s, geo, ids[1..]);
      if ids[0] in s.locationInfos {
        var info := s.locationInfos[ids[0]];
        ClassifyOnlyDocumentEvents(Some(info), info.documentSnapshot, info.location, LocationIsInQuery(s, geo, info.location));
      }
    }
  }

  /** The pruning pass: keep exactly the records whose hash some active range contains. */
  function Prune(cache: map<DocId, LocationInfo>, queries: Option<set<HashRange>>, geo: Geometry)
    : (r: map<DocId, LocationInfo>)
    ensures forall id :: id in r ==> id in cache && r[id] == cache[id]
    ensures forall id :: id in r ==> QueriesContainGeoHash(queries, geo, r[id].geoHash)
    ensures forall id :: id in cache && QueriesContainGeoHash(queries, geo, cache[id].geoHash) ==> id in r
  {
    map id | id in cache && QueriesContainGeoHash(queries, geo, cache[id].geoHash) :: cache[id]
  }

  /**
   * The subscription half of setupQueries: the new cover becomes the query set; ranges only
   * in the old set lose their subscription and outstanding status; ranges only in the new set
   * get a subscription of this run and become outstanding.
   */
  function Resubscribe(s: GeoQuery, geo: Geometry): (t: GeoQuery)
    ensures t.queries == Some(geo.queriesAtLocation(s.center, s.radius))
    ensures t.center == s.center && t.radius == s.radius
    ensures t.eventListeners == s.eventListeners && t.locationInfos == s.locationInfos
    ensures t.epoch == s.epoch + 1
  {
    var oldQueries := ActiveQueries(s.queries);
    var newQueries := geo.queriesAtLocation(s.center, s.radius);
    var dropped := oldQueries - newQueries;
    var added := newQueries - oldQueries;
    var subscriptions := (s.firestoreQueries - dropped) + map q | q in added :: Subscription(q, s.epoch);
    var outstanding := (s.outstandingQueries - dropped) + added;
    s.(queries := Some(newQueries), firestoreQueries := subscriptions,
       outstandingQueries := outstanding, epoch := s.epoch + 1)
  }

  /**
   * The range diff, assuming one subscription per previously active range: afterwards the
   * subscriptions are exactly the new cover; ranges kept keep their subscription and their
   * outstanding status; new ranges get a fresh subscription and are outstanding; dropped
   * ranges are no longer outstanding; and what is outstanding is active.
   */
  lemma ResubscribeDiffsRanges(s: GeoQuery, geo: Geometry)
    requires Valid(s, geo)
    ensures var t := Resubscribe(s, geo);
      var oldQueries := ActiveQueries(s.queries);
      var newQueries := geo.queriesAtLocation(s.center, s.radius);
      && t.firestoreQueries.Keys == newQueries
      && (forall q :: q in oldQueries && q in newQueries ==>
            t.firestoreQueries[q] == s.firestoreQueries[q]
            && (q in t.outstandingQueries <==> q in s.outstandingQueries))
      && (forall q :: q in newQueries && q !in oldQueries ==>
            q in t.outstandingQueries
            && t.firestoreQueries[q].range == q
            && t.firestoreQueries[q] !in s.firestoreQueries.Values)
      && (forall q :: q in oldQueries && q !in newQueries ==> q !in t.outstandingQueries)
      && t.outstandingQueries <= t.firestoreQueries.Keys
      && Valid(t, geo)
  {
  }

  /** setupQueries. `order` is the iteration order of the location cache. */
  function SetupQueries(s: GeoQuery, geo: Geometry, order: seq<DocId>): (r: Step)
    requires Enumerates(order, s.locationInfos)
    ensures r.query.queries == Some(geo.queriesAtLocation(s.center, s.radius))
    ensures r.query.center == s.center && r.query.radius == s.radius
    ensures r.query.eventListeners == s.eventListeners
    ensures r.query.epoch == s.epoch + 1
    ensures forall d :: d in r.log ==> d.listener in s.eventListeners
  {
    var synced := Resubscribe(s, geo);
    var reclassified := Reclassify(synced, geo, order);
    var pruned := reclassified.query.(locationInfos := Prune(reclassified.query.locationInfos, synced.queries, geo));
    Step(pruned, reclassified.log + CheckAndFireReady(pruned))
  }

  /** setupQueries changes the subscriptions exactly as the range diff does. */
  lemma SetupQueriesDiffsRanges(s: GeoQuery, geo: Geometry, order: seq<DocId>)
    requires Valid(s, geo) && Enumerates(order, s.locationInfos)
    ensures var r := SetupQueries(s, geo, order).query;
      var t := Resubscribe(s, geo);
      && r.firestoreQueries == t.firestoreQueries
      && r.outstandingQueries == t.outstandingQueries
      && r.firestoreQueries.Keys == geo.queriesAtLocation(s.center, s.radius)
      && r.outstandingQueries <= r.firestoreQueries.Keys
  {
    ResubscribeDiffsRanges(s, geo);
  }

  /**
   * The cache after setupQueries: every remaining record is seen by some active range and
   * holds its membership in the circle; a record is dropped exactly when no active range
   * contains its hash.
   */
  lemma SetupQueriesPrunes(s: GeoQuery, geo: Geometry, order: seq<DocId>)
    requires Valid(s, geo) && Enumerates(order, s.locationInfos)
    ensures var r := SetupQueries(s, geo, order).query;
      && (forall id :: id in r.locationInfos ==>
            QueriesContainGeoHash(r.queries, geo, r.locationInfos[id].geoHash))
      && (forall id :: id in s.locationInfos ==>
            (id in r.locationInfos <==> QueriesContainGeoHash(r.queries, geo, s.locationInfos[id].geoHash)))
      && (forall id :: id in r.locationInfos ==>
            && id in s.locationInfos
            && r.locationInfos[id].location == s.locationInfos[id].location
            && r.locationInfos[id].documentSnapshot == s.locationInfos[id].documentSnapshot
            && r.locationInfos[id].inGeoQuery == LocationIsInQuery(s, geo, s.locationInfos[id].location))
  {
    ReclassifyRefreshes(Resubscribe(s, geo), geo, order);
  }

  /**
   * What each listener receives from setupQueries: the re-classification of every cached
   * record in iteration order, then one ready exactly when nothing is outstanding at the end.
   * Non-listeners receive nothing.
   */
  lemma SetupQueriesNotifies(s: GeoQuery, geo: Geometry, order: seq<DocId>, l: ListenerId)
    requires Valid(s, geo) && Enumerates(order, s.locationInfos)
    ensures var r := SetupQueries(s, geo, order);
      var ready := if r.query.outstandingQueries == {} then [GeoQueryReady] else [];
      && Inbox(r.log, l) == (if l in s.eventListeners then ReclassifyEvents(s, geo, order) + ready else [])
      && multiset(Inbox(r.log, l))[GeoQueryReady] ==
           if l in s.eventListeners && r.query.outstandingQueries == {} then 1 else 0
  {
    var synced := Resubscribe(s, geo);
    var reclassified := Reclassify(synced, geo, order);
    var pruned := reclassified.query.(locationInfos := Prune(reclassified.query.locationInfos, synced.queries, geo));
    InboxAppend(reclassified.log, CheckAndFireReady(pruned), l);
    ReclassifyNotifies(synced, geo, order, l);
    ReclassifyEventsFrame(synced, s, geo, order);
    CheckAndFireReadyNotifies(pruned, l);
    NoReadyFromReclassify(s, geo, order);
  }

  /** Re-classification never contributes a ready event. */
  lemma NoReadyFromReclassify(s: GeoQuery, geo: Geometry, order: seq<DocId>)
    requires WellKeyed(s.locationInfos, geo)
    ensures multiset(ReclassifyEvents(s, geo, order))[GeoQueryReady] == 0
  {
    ReclassifyEventsByMembership(s, geo, order);
    assert GeoQueryReady !in ReclassifyEvents(s, geo, order);
  }

  lemma SetupQueriesKeepsValid(s: GeoQuery, geo: Geometry, order: seq<DocId>)
    requires Valid(s, geo) && Enumerates(order, s.locationInfos)
    ensures Valid(SetupQueries(s, geo, order).query, geo)
  {
    ResubscribeDiffsRanges(s, geo);
  }
}

=== FILE: views.dfy ===
/**
 * What the listeners of a query believe. A listener that has received entered for a document
 * and no exited since believes the document is inside the circle. The theorem of this module
 * is that every entry point keeps each registered listener's belief equal to the set of cached
 * documents marked inside, and that every event it receives makes sense given that belief.
 * Pruning relies on the covering primitive's contract: a point inside a circle hashes into one
 * of the circle's covering ranges.
 */
module ListenerViews {
  import opened Wrappers
  import opened Sequences
  import opened Geometry
  import opened Documents
  import opened Events
  import opened Classifier
  import opened QueryState
  import opened Sync
  import opened Notifications
  import opened Registry

  /** The cached documents marked inside the circle. */
  function InsideSet(s: GeoQuery): (inside: set<DocId>)
    ensures forall id :: id in inside <==> id in s.locationInfos && s.locationInfos[id].inGeoQuery
  {
    set id | id in s.locationInfos && s.locationInfos[id].inGeoQuery
  }

  /** The contract of queriesAtLocation: every point inside a circle hashes into one of its ranges. */
  ghost predicate CoverContainsCircle(geo: Geometry)
  {
    forall location, center, radius :: geo.withinRadius(location, center, radius) ==>
      QueriesContainGeoHash(Some(geo.queriesAtLocation(center, radius)), geo, geo.hashOf(location))
  }

  /** A listener believing the inside set makes sense of one classification and then believes the new inside set. */
  lemma UpdateLocationInfoKeepsListenersInStep(s: GeoQuery, geo: Geometry, snapshot: DocumentSnapshot, location: GeoPoint, l: ListenerId)
    requires NoDup(s.eventListeners) && l in s.eventListeners
    ensures var r := UpdateLocationInfo(s, geo, snapshot, location);
      && Sensible(InsideSet(s), Inbox(r.log, l))
      && Believed(InsideSet(s), Inbox(r.log, l)) == InsideSet(r.query)
  {
    var r := UpdateLocationInfo(s, geo, snapshot, location);
    var isInQuery := LocationIsInQuery(s, geo, location);
    UpdateLocationInfoNotifies(s, geo, snapshot, location, l);
    ClassifyKeepsListenersInStep(CachedInfo(s, snapshot.id), snapshot, location, isInQuery, InsideSet(s));
    assert InsideSet(r.query) == if isInQuery then InsideSet(s) + {snapshot.id} else InsideSet(s) - {snapshot.id};
  }

  /** The re-classification loop keeps every listener in step, record by record. */
  lemma {:induction false} ReclassifyKeepsListenersInStep(s: GeoQuery, geo: Geometry, ids: seq<DocId>, l: ListenerId)
    requires NoDup(s.eventListeners) && l in s.eventListeners
    ensures var r := Reclassify(s, geo, ids);
      && Sensible(InsideSet(s), Inbox(r.log, l))
      && Believed(InsideSet(s), Inbox(r.log, l)) == InsideSet(r.query)
    decreases |ids|
  {
    if ids != [] {
      if ids[0] !in s.locationInfos {
        ReclassifyKeepsListenersInStep(s, geo, ids[1..], l);
      } else {
        var info := s.locationInfos[ids[0]];
        var first := UpdateLocationInfo(s, geo, info.documentSnapshot, info.location);
        var rest := Reclassify(first.query, geo, ids[1..]);
        InboxAppend(first.log, rest.log, l);
        UpdateLocationInfoKeepsListenersInStep(s, geo, info.documentSnapshot, info.location, l);
        ReclassifyKeepsListenersInStep(first.query, geo, ids[1..], l);
        BelievedAppend(InsideSet(s), Inbox(first.log, l), Inbox(rest.log, l));
      }
    }
  }

  /**
   * Pruning never drops a record marked inside, provided every record's mark and hash are
   * those of its location for the current circle.
   */
  lemma PruneKeepsInsideSet(s: GeoQuery, geo: Geometry)
    requires CoverContainsCircle(geo)
    requires s.queries == Some(geo.queriesAtLocation(s.center, s.radius))
    requires forall id :: id in s.locationInfos ==>
      && s.locationInfos[id].geoHash == geo.hashOf(s.locationInfos[id].location)
      && s.locationInfos[id].inGeoQuery == LocationIsInQuery(s, geo, s.locationInfos[id].location)
    ensures InsideSet(s.(locationInfos := Prune(s.locationInfos, s.queries, geo))) == InsideSet(s)
  {
    var pruned := s.(locationInfos := Prune(s.locationInfos, s.queries, geo));
    forall id | id in InsideSet(s)
      ensures id in InsideSet(pruned)
    {
      var location := s.locationInfos[id].location;
      assert geo.withinRadius(location, s.center, s.radius);
    }
  }

  /**
   * Re-classifying every cached record refreshes its mark for the current circle, so the
   * pruning pass that follows drops no record marked inside.
   */
  lemma ReclassifiedPruneKeepsInsideSet(s: GeoQuery, geo: Geometry, order: seq<DocId>)
    requires WellKeyed(s.locationInfos, geo) && Enumerates(order, s.locationInfos) && CoverContainsCircle(geo)
    requires s.queries == Some(geo.queriesAtLocation(s.center, s.radius))
    ensures var reclassified := Reclassify(s, geo, order).query;
      InsideSet(reclassified.(locationInfos := Prune(reclassified.locationInfos, s.queries, geo))) == InsideSet(reclassified)
  {
    var reclassified := Reclassify(s, geo, order).query;
    ReclassifyRefreshes(s, geo, order);
    PruneKeepsInsideSet(reclassified, geo);
  }

  /** Ready carries no news about documents: it makes sense to anyone and changes no belief. */
  lemma ReadyKeepsListenersInStep(s: GeoQuery, l: ListenerId)
    requires NoDup(s.eventListeners)
    ensures Sensible(InsideSet(s), Inbox(CheckAndFireReady(s), l))
    ensures Believed(InsideSet(s), Inbox(CheckAndFireReady(s), l)) == InsideSet(s)
  {
    CheckAndFireReadyNotifies(s, l);
  }

  /** setupQueries keeps every listener in step: re-classification moves beliefs, pruning and readiness do not. */
  lemma SetupQueriesKeepsListenersInStep(s: GeoQuery, geo: Geometry, order: seq<DocId>, l: ListenerId)
    requires NoDup(s.eventListeners) && WellKeyed(s.locationInfos, geo)
    requires Enumerates(order, s.locationInfos) && CoverContainsCircle(geo)
    requires l in s.eventListeners
    ensures var r := SetupQueries(s, geo, order);
      && Sensible(InsideSet(s), Inbox(r.log, l))
      && Believed(InsideSet(s), Inbox(r.log, l)) == InsideSet(r.query)
  {
    var synced := Resubscribe(s, geo);
    var reclassified := Reclassify(synced, geo, order);
    var pruned := reclassified.query.(locationInfos := Prune(reclassified.query.locationInfos, synced.queries, geo));
    var ready := CheckAndFireReady(pruned);
    ReclassifyKeepsListenersInStep(synced, geo, order, l);
    ReclassifiedPruneKeepsInsideSet(synced, geo, order);
    InboxAppend(reclassified.log, ready, l);
    ReadyKeepsListenersInStep(pruned, l);
    BelievedAppend(InsideSet(s), Inbox(reclassified.log, l), Inbox(ready, l));
  }

  /** Removal handling keeps every listener in step. */
  lemma ChildRemovedKeepsListenersInStep(s: GeoQuery, geo: Geometry, snapshot: DocumentSnapshot, reread: Option<GeoPoint>, l: ListenerId)
    requires Valid(s, geo) && l in s.eventListeners
    ensures var r := ChildRemoved(s, geo, snapshot, reread);
      && Sensible(InsideSet(s), Inbox(r.log, l))
      && Believed(InsideSet(s), Inbox(r.log, l)) == InsideSet(r.query)
  {
    ChildRemovedNotifies(s, geo, snapshot, reread, l);
    var r := ChildRemoved(s, geo, snapshot, reread);
    if snapshot.id in s.locationInfos && LeftAllRanges(s, geo, reread) {
      assert InsideSet(r.query) == InsideSet(s) - {snapshot.id};
    } else {
      assert InsideSet(r.query) == InsideSet(s);
    }
  }

  /** The documents of `order` cached and marked inside. */
  function MarkedInside(cache: map<DocId, LocationInfo>, order: seq<DocId>): (marked: set<DocId>)
  {
    set id | id in order && id in cache && cache[id].inGeoQuery
  }

  /**
   * The replayed entries make a listener that believed `inside` (none of the replayed
   * documents) believe in addition exactly the replayed documents marked inside, and each
   * entered makes sense to it.
   */
  lemma {:induction false} EntriesTeachInsideSet(cache: map<DocId, LocationInfo>, geo: Geometry, order: seq<DocId>,
                                                 inside: set<DocId>)
    requires WellKeyed(cache, geo) && NoDup(order)
    requires forall id :: id in order ==> id !in inside
    ensures Sensible(inside, Entries(cache, order))
    ensures Believed(inside, Entries(cache, order)) == inside + MarkedInside(cache, order)
    decreases |order|
  {
    if order != [] {
      var head := order[0];
      var marked := head in cache && cache[head].inGeoQuery;
      var own := if marked then [DocumentEntered(cache[head].documentSnapshot, cache[head].location)] else [];
      var learned := if marked then inside + {head} else inside;
      assert Entries(cache, order) == own + Entries(cache, order[1..]);
      if marked {
        assert cache[head].documentSnapshot.id == head;
        assert Learn(inside, own[0]) == learned;
        assert own[1..] == [];
        assert Believed(learned, own[1..]) == learned;
      }
      assert Sensible(inside, own);
      assert Believed(inside, own) == learned;
      assert NoDup(order[1..]);
      EntriesTeachInsideSet(cache, geo, order[1..], learned);
      BelievedAppend(inside, own, Entries(cache, order[1..]));
      MarkedInsideCons(cache, order);
    }
  }

  lemma MarkedInsideCons(cache: map<DocId, LocationInfo>, order: seq<DocId>)
    requires order != []
    ensures MarkedInside(cache, order)
      == MarkedInside(cache, order[1..]) + (if order[0] in cache && cache[order[0]].inGeoQuery then {order[0]} else {})
  {
    assert forall id :: id in order <==> id == order[0] || id in order[1..];
  }

  /**
   * Adding a listener keeps everyone in step. The new listener, which believes nothing, ends
   * up believing exactly the documents marked inside; the others keep their belief, or follow
   * setupQueries when the query was never synchronised (nothing is then marked inside).
   */
  lemma AddListenerKeepsListenersInStep(s: GeoQuery, geo: Geometry, listener: ListenerId, order: seq<DocId>)
    requires Valid(s, geo) && Enumerates(order, s.locationInfos) && CoverContainsCircle(geo)
    requires listener !in s.eventListeners
    requires Quiet(s)
    ensures var r := AddGeoQueryDataEventListener(s, geo, listener, order);
      && r.Success?
      && FollowsTo(r.value.log, listener, {}, r.value.query)
      && forall l :: l in s.eventListeners ==> FollowsTo(r.value.log, l, InsideSet(s), r.value.query)
  {
    if s.queries.None? {
      JoinUnsynchronisedKeepsListenersInStep(s, geo, listener, order);
    } else {
      JoinRunningKeepsListenersInStep(s, geo, listener, order);
    }
  }

  /** Joining a never-synchronised query runs setupQueries, which moves everyone from nothing inside. */
  lemma JoinUnsynchronisedKeepsListenersInStep(s: GeoQuery, geo: Geometry, listener: ListenerId, order: seq<DocId>)
    requires Valid(s, geo) && Enumerates(order, s.locationInfos) && CoverContainsCircle(geo)
    requires listener !in s.eventListeners && s.queries.None? && InsideSet(s) == {}
    ensures var r := AddGeoQueryDataEventListener(s, geo, listener, order);
      && r.Success?
      && forall l :: l in r.value.query.eventListeners ==> FollowsTo(r.value.log, l, {}, r.value.query)
  {
    var t := s.(eventListeners := s.eventListeners + [listener]);
    assert Valid(t, geo);
    assert InsideSet(t) == {};
    forall l | l in t.eventListeners
      ensures FollowsTo(SetupQueries(t, geo, order).log, l, {}, SetupQueries(t, geo, order).query)
    {
      SetupQueriesKeepsListenersInStep(t, geo, order, l);
    }
  }

  /** Joining a running query: the replay teaches the newcomer the inside set; nobody else hears anything. */
  lemma JoinRunningKeepsListenersInStep(s: GeoQuery, geo: Geometry, listener: ListenerId, order: seq<DocId>)
    requires Valid(s, geo) && Enumerates(order, s.locationInfos)
    requires listener !in s.eventListeners && s.queries.Some?
    ensures var r := AddGeoQueryDataEventListener(s, geo, listener, order);
      && r.Success?
      && FollowsTo(r.value.log, listener, {}, r.value.query)
      && forall l :: l in s.eventListeners ==> FollowsTo(r.value.log, l, InsideSet(s), r.value.query)
  {
    var r := AddGeoQueryDataEventListener(s, geo, listener, order).value;
    var replay := Replay(s.locationInfos, order, listener);
    var ready := if s.outstandingQueries == {} then [Dispatch(listener, GeoQueryReady)] else [];
    assert r.log == replay + ready;
    InboxAppend(replay, ready, listener);
    InboxOfReplay(s.locationInfos, order, listener);
    EntriesTeachInsideSet(s.locationInfos, geo, order, {});
    BelievedAppend({}, Inbox(replay, listener), Inbox(ready, listener));
    assert InsideSet(r.query) == MarkedInside(s.locationInfos, order);
    forall l | l in s.eventListeners
      ensures Inbox(r.log, l) == []
    {
      InboxOfOthers(r.log, l);
    }
  }

  /** Everything that can happen to a query: a call by the application or a callback from the store. */
  datatype Input =
    | AddListener(listener: ListenerId, order: seq<DocId>)
    | RemoveListener(listener: ListenerId)
    | RemoveAll
    | MoveCenter(center: GeoPoint, order: seq<DocId>)
    | Resize(radiusKm: real, order: seq<DocId>)
    | Relocate(center: GeoPoint, radiusKm: real, order: seq<DocId>)
    | Added(snapshot: DocumentSnapshot)
    | Changed(snapshot: DocumentSnapshot)
    | Removed(snapshot: DocumentSnapshot, reread: Option<GeoPoint>)
    | LoadComplete(range: HashRange)
    | LoadCancelled(cause: string)
  {
    /** Calls made by the application, as opposed to callbacks from the store. */
    predicate FromApplication()
    {
      AddListener? || RemoveListener? || RemoveAll? || MoveCenter? || Resize? || Relocate?
    }
  }

  /**
   * The inputs that can reach a query in a given state: an iteration order enumerates the
   * cache, and document callbacks arrive only while a query set is computed, because reset
   * removes every listener registration together with the query set.
   */
  predicate Admissible(s: GeoQuery, input: Input)
  {
    match input
    case AddListener(_, order) => Enumerates(order, s.locationInfos)
    case MoveCenter(_, order) => Enumerates(order, s.locationInfos)
    case Resize(_, order) => Enumerates(order, s.locationInfos)
    case Relocate(_, _, order) => Enumerates(order, s.locationInfos)
    case Added(_) => s.queries.Some?
    case Changed(_) => s.queries.Some?
    case Removed(_, _) => s.queries.Some?
    case _ => true
  }

  /** A query without a query set has nothing marked inside. */
  predicate Quiet(s: GeoQuery)
  {
    s.queries.None? ==> InsideSet(s) == {}
  }

  /** Dispatches one input to the entry point that handles it. */
  function Handle(s: GeoQuery, geo: Geometry, input: Input): (r: Result<Step, GeoQueryError>)
    requires Admissible(s, input)
    ensures r.Failure? <==>
      || (input.AddListener? && input.listener in s.eventListeners)
      || (input.RemoveListener? && input.listener !in s.eventListeners)
      || ((input.Added? || input.Changed?) && input.snapshot.location.None?)
    ensures r.Success? ==> r.value.query.center == (if input.MoveCenter? || input.Relocate? then input.center else s.center)
  {
    match input
    case AddListener(listener, order) => AddGeoQueryDataEventListener(s, geo, listener, order)
    case RemoveListener(listener) =>
      (match RemoveGeoQueryEventListener(s, listener)
       case Success(t) => Success(Step(t, []))
       case Failure(e) => Failure(e))
    case RemoveAll => Success(Step(RemoveAllListeners(s), []))
    case MoveCenter(center, order) => Success(SetCenter(s, geo, center, order))
    case Resize(radiusKm, order) => Success(SetRadius(s, geo, radiusKm, order))
    case Relocate(center, radiusKm, order) => Success(SetLocation(s, geo, center, radiusKm, order))
    case Added(snapshot) => ChildAdded(s, geo, snapshot)
    case Changed(snapshot) => ChildChanged(s, geo, snapshot)
    case Removed(snapshot, reread) => Success(ChildRemoved(s, geo, snapshot, reread))
    case LoadComplete(range) => Success(OnInitialLoadComplete(s, range))
    case LoadCancelled(cause) => Success(OnInitialLoadCancelled(s, cause))
  }

  /** A listener that starts from `before` makes sense of its events and ends up believing the inside set of `t`. */
  predicate FollowsTo(log: seq<Dispatch>, l: ListenerId, before: set<DocId>, t: GeoQuery)
  {
    Sensible(before, Inbox(log, l)) && Believed(before, Inbox(log, l)) == InsideSet(t)
  }

  /**
   * What a step owes the listeners: the invariant and quietness survive, and every listener
   * registered afterwards is in step. One that was registered before goes from the old inside
   * set to the new one; one that joined goes from nothing to the new inside set. Each gets
   * there through events that make sense along the way.
   */
  ghost predicate KeepsInStep(s: GeoQuery, geo: Geometry, r: Step)
  {
    && Valid(r.query, geo)
    && Quiet(r.query)
    && forall l :: l in r.query.eventListeners ==>
         FollowsTo(r.log, l, if l in s.eventListeners then InsideSet(s) else {}, r.query)
  }

  /** Whatever happens to a valid, quiet query, every step it takes keeps its listeners in step. */
  lemma HandleKeepsListenersInStep(s: GeoQuery, geo: Geometry, input: Input)
    requires Valid(s, geo) && Quiet(s) && CoverContainsCircle(geo) && Admissible(s, input)
    ensures var r := Handle(s, geo, input);
      r.Success? ==> KeepsInStep(s, geo, r.value)
  {
    if input.FromApplication() {
      CallKeepsListenersInStep(s, geo, input);
    } else {
      CallbackKeepsListenersInStep(s, geo, input);
    }
  }

  /** The application's calls: registration and the setters. */
  lemma CallKeepsListenersInStep(s: GeoQuery, geo: Geometry, input: Input)
    requires Valid(s, geo) && Quiet(s) && CoverContainsCircle(geo) && Admissible(s, input)
    requires input.FromApplication()
    ensures var r := Handle(s, geo, input);
      r.Success? ==> KeepsInStep(s, geo, r.value)
  {
    match input
    case AddListener(listener, order) =>
      AddListenerStaysInStep(s, geo, listener, order);
    case RemoveListener(listener) =>
      RemoveListenerStaysInStep(s, geo, listener);
    case RemoveAll =>
      RemoveAllStaysInStep(s, geo);
    case MoveCenter(center, order) =>
      SetCenterStaysInStep(s, geo, center, order);
    case Resize(radiusKm, order) =>
      SetRadiusStaysInStep(s, geo, radiusKm, order);
    case Relocate(center, radiusKm, order) =>
      SetLocationStaysInStep(s, geo, center, radiusKm, order);
  }

  lemma SetCenterStaysInStep(s: GeoQuery, geo: Geometry, center: GeoPoint, order: seq<DocId>)
    requires Valid(s, geo) && Quiet(s) && CoverContainsCircle(geo) && Enumerates(order, s.locationInfos)
    ensures KeepsInStep(s, geo, SetCenter(s, geo, center, order))
  {
    var t := s.(center := center, radius := s.radius);
    assert SetCenter(s, geo, center, order) == Resync(t, geo, order);
    ResyncStaysInStep(s, geo, center, s.radius, order);
  }

  lemma SetRadiusStaysInStep(s: GeoQuery, geo: Geometry, radiusKm: real, order: seq<DocId>)
    requires Valid(s, geo) && Quiet(s) && CoverContainsCircle(geo) && Enumerates(order, s.locationInfos)
    ensures KeepsInStep(s, geo, SetRadius(s, geo, radiusKm, order))
  {
    var radius := geo.capRadius(radiusKm) * KilometerToMeter;
    var t := s.(center := s.center, radius := radius);
    assert SetRadius(s, geo, radiusKm, order) == Resync(t, geo, order);
    ResyncStaysInStep(s, geo, s.center, radius, order);
  }

  lemma SetLocationStaysInStep(s: GeoQuery, geo: Geometry, center: GeoPoint, radiusKm: real, order: seq<DocId>)
    requires Valid(s, geo) && Quiet(s) && CoverContainsCircle(geo) && Enumerates(order, s.locationInfos)
    ensures KeepsInStep(s, geo, SetLocation(s, geo, center, radiusKm, order))
  {
    ResyncStaysInStep(s, geo, center, geo.capRadius(radiusKm) * KilometerToMeter, order);
  }

  /** The store's callbacks: document changes and the load callbacks of a range. */
  lemma CallbackKeepsListenersInStep(s: GeoQuery, geo: Geometry, input: Input)
    requires Valid(s, geo) && Quiet(s) && Admissible(s, input)
    requires !input.FromApplication()
    ensures var r := Handle(s, geo, input);
      r.Success? ==> KeepsInStep(s, geo, r.value)
  {
    match input
    case Added(snapshot) =>
      if snapshot.location.Some? {
        UpdateStaysInStep(s, geo, snapshot);
      }
    case Changed(snapshot) =>
      if snapshot.location.Some? {
        UpdateStaysInStep(s, geo, snapshot);
      }
    case Removed(snapshot, reread) =>
      ChildRemovedStaysInStep(s, geo, snapshot, reread);
    case LoadComplete(range) =>
      LoadCompleteStaysInStep(s, geo, range);
    case LoadCancelled(cause) =>
      LoadCancelledStaysInStep(s, geo, cause);
  }

  lemma RemoveAllStaysInStep(s: GeoQuery, geo: Geometry)
    requires Valid(s, geo)
    ensures KeepsInStep(s, geo, Step(RemoveAllListeners(s), []))
  {
    RemoveAllListenersKeepsValid(s, geo);
    assert InsideSet(RemoveAllListeners(s)) == {};
  }

  lemma AddListenerStaysInStep(s: GeoQuery, geo: Geometry, listener: ListenerId, order: seq<DocId>)
    requires Valid(s, geo) && Quiet(s) && CoverContainsCircle(geo) && Enumerates(order, s.locationInfos)
    ensures var r := AddGeoQueryDataEventListener(s, geo, listener, order);
      r.Success? ==> KeepsInStep(s, geo, r.value)
  {
    var r := AddGeoQueryDataEventListener(s, geo, listener, order);
    if r.Success? {
      AddListenerKeepsValid(s, geo, listener, order);
      AddListenerKeepsListenersInStep(s, geo, listener, order);
      forall l | l in r.value.query.eventListeners
        ensures FollowsTo(r.value.log, l, if l in s.eventListeners then InsideSet(s) else {}, r.value.query)
      {
        if l != listener {
          assert l in s.eventListeners;
        }
      }
    }
  }

  lemma RemoveListenerStaysInStep(s: GeoQuery, geo: Geometry, listener: ListenerId)
    requires Valid(s, geo) && Quiet(s)
    ensures var r := RemoveGeoQueryEventListener(s, listener);
      r.Success? ==> KeepsInStep(s, geo, Step(r.value, []))
  {
    RemoveListenerKeepsValid(s, geo, listener);
  }

  lemma ChildRemovedStaysInStep(s: GeoQuery, geo: Geometry, snapshot: DocumentSnapshot, reread: Option<GeoPoint>)
    requires Valid(s, geo) && s.queries.Some?
    ensures KeepsInStep(s, geo, ChildRemoved(s, geo, snapshot, reread))
  {
    var r := ChildRemoved(s, geo, snapshot, reread);
    ChildRemovedKeepsValid(s, geo, snapshot, reread);
    forall l | l in r.query.eventListeners
      ensures FollowsTo(r.log, l, InsideSet(s), r.query)
    {
      ChildRemovedKeepsListenersInStep(s, geo, snapshot, reread, l);
    }
  }

  lemma LoadCompleteStaysInStep(s: GeoQuery, geo: Geometry, range: HashRange)
    requires Valid(s, geo) && Quiet(s)
    ensures KeepsInStep(s, geo, OnInitialLoadComplete(s, range))
  {
    var r := OnInitialLoadComplete(s, range);
    OnInitialLoadCompleteKeepsValid(s, geo, range);
    forall l | l in r.query.eventListeners
      ensures FollowsTo(r.log, l, InsideSet(s), r.query)
    {
      OnInitialLoadCompleteNotifies(s, range, l);
    }
  }

  lemma LoadCancelledStaysInStep(s: GeoQuery, geo: Geometry, cause: string)
    requires Valid(s, geo) && Quiet(s)
    ensures KeepsInStep(s, geo, OnInitialLoadCancelled(s, cause))
  {
    var r := OnInitialLoadCancelled(s, cause);
    forall l | l in r.query.eventListeners
      ensures FollowsTo(r.log, l, InsideSet(s), r.query)
    {
      OnInitialLoadCancelledNotifies(s, cause, l);
    }
  }

  /** The setters' shared tail, run on the moved or resized circle, keeps the invariant, quietness and every listener in step. */
  lemma ResyncStaysInStep(s: GeoQuery, geo: Geometry, center: GeoPoint, radius: real, order: seq<DocId>)
    requires Valid(s, geo) && Quiet(s) && CoverContainsCircle(geo) && Enumerates(order, s.locationInfos)
    ensures KeepsInStep(s, geo, Resync(s.(center := center, radius := radius), geo, order))
  {
    var t := s.(center := center, radius := radius);
    assert Valid(t, geo) && InsideSet(t) == InsideSet(s);
    ResyncKeepsValid(t, geo, order);
    var r := Resync(t, geo, order);
    forall l | l in r.query.eventListeners
      ensures FollowsTo(r.log, l, InsideSet(s), r.query)
    {
      SetupQueriesKeepsListenersInStep(t, geo, order, l);
    }
  }

  /** A document callback with a location keeps the invariant, quietness and every listener in step. */
  lemma UpdateStaysInStep(s: GeoQuery, geo: Geometry, snapshot: DocumentSnapshot)
    requires Valid(s, geo) && s.queries.Some? && snapshot.location.Some?
    ensures KeepsInStep(s, geo, UpdateLocationInfo(s, geo, snapshot, snapshot.location.value))
  {
    var r := UpdateLocationInfo(s, geo, snapshot, snapshot.location.value);
    ChildAddedKeepsValid(s, geo, snapshot);
    forall l | l in r.query.eventListeners
      ensures FollowsTo(r.log, l, InsideSet(s), r.query)
    {
      UpdateLocationInfoKeepsListenersInStep(s, geo, snapshot, snapshot.location.value, l);
    }
  }
}

=== FILE: wrappers.dfy ===
/** Failure-compatible result types used by the GeoQuery model. */
module Wrappers {

  /** A value that may be absent: Java's nullable reference. */
  datatype Option<+T> = None | Some(value: T)

  /** The outcome of an operation that can throw: either its value or the error it raises. */
  datatype Result<+T, +E> = Success(value: T) | Failure(error: E)
}

/** Sequences used as duplicate-free collections. */
module Sequences {

  /** No element occurs twice. */
  predicate NoDup<T(==)>(xs: seq<T>)
  {
    forall i, j :: 0 <= i < j < |xs| ==> xs[i] != xs[j]
  }

  /** The sequence without any occurrence of x, other elements in their order (Set.remove). */
  function Without<T(==,!new)>(xs: seq<T>, x: T): (r: seq<T>)
    ensures forall y :: y in r <==> y in xs && y != x
    ensures NoDup(xs) ==> NoDup(r)
    ensures x !in xs ==> r == xs
  {
    if xs == [] then []
    else if xs[0] == x then Without(xs[1..], x)
    else
      var rest := Without(xs[1..], x);
      assert NoDup(xs) ==> NoDup([xs[0]] + rest) by {
        if NoDup(xs) {
          assert forall k :: 0 <= k < |xs[1..]| ==> xs[1..][k] == xs[k + 1];
          assert xs[0] !in rest;
        }
      }
      [xs[0]] + rest
  }
}
